=== FILE: README.md ===
# autoMergeMaster sync core, modelled in Dafny

autoMergeMaster brings a list of feature branches up to date with the master
branch. For each branch it pulls, merges `origin/<master>` with `--no-ff`, and
pushes. Each branch works inside its own git worktree under
`<repo>/.automerger/<branch>`. The shared checkout is switched to master for
the duration of the run and then checked out again under the name
`git rev-parse --abbrev-ref HEAD` reported at the start. That is the starting
branch, except after a detached start, where the name is `HEAD` and master
stays checked out.

The model covers the sync service (`service.go`), the global worktree purge
(`cleanup.go`) and the controller's `Run` (`sync_controller.go`):

- Every git invocation and every filesystem call becomes a `Command` value, and
  each operation returns the commands it issued, in order (its *trace*). The
  answer to a command comes from an `Oracle` parameter: whether it succeeds, what
  `git rev-parse --abbrev-ref HEAD` prints, and what a file contains. One
  command gets the same answer for the whole run.
- The filesystem is a set of paths (`FileSystem.Tree`). A path exists (`os.Stat`)
  when it or something below it is in the set. `os.RemoveAll` drops it and
  everything below it. A pull, merge or push whose worktree directory does not
  exist fails, as `exec.Cmd.Run` does before git starts.
- git refuses `worktree add` for a branch it already has a worktree for. The
  model tracks the branches registered during worktree creation; the purge that
  precedes creation removes the earlier registrations.
- Errors are stage-tagged `Git.Failure` values rather than formatted messages.
- The per-branch goroutines of `Run` become a sequential map over the branch
  list. The goroutines share no Go variables, but they do share the
  repository. Worktree creation finishes before any goroutine starts, so
  commands of two goroutines never share a worktree directory except in the
  cases listed under "Left out".
- The order of `Run`'s steps is stated as an automaton over the trace
  (`Controller.Phase`, `Controller.Advance`, `Controller.Drive`). Every run's
  trace is accepted by it.

Modules and files: `Wrappers` (wrappers.dfy), `Text` (text.dfy: `strings.Split`
and `strings.TrimSpace`), `FileSystem` (filesystem.dfy), `Git` (git.dfy: commands,
oracle, failures, the checked-out branch), `Service` (service.dfy), `Cleanup`
(cleanup.dfy), `Controller` (controller.dfy).

## Model

| member | source | states |
|---|---|---|
| Text.Split | internal/application/sync/service.go:38 | splitting on the newline yields at least one line, and no line contains a newline |
| Text.SplitCount | internal/application/sync/service.go:38 | there is one more line than the content has newline characters |
| Text.JoinSplit | internal/application/sync/service.go:38 | re-joining the lines with newlines gives back the file content exactly |
| Text.SplitJoin | internal/application/sync/service.go:38 | splitting newline-free lines joined by newlines gives back those lines |
| Text.TrimLeftSpec | internal/application/sync/service.go:41 | the left trim drops exactly a white-space prefix and stops at the first other character |
| Text.TrimRightSpec | internal/application/sync/service.go:41 | the right trim drops exactly a white-space suffix and stops at the last other character |
| Text.TrimSpace | internal/application/sync/service.go:41 | the trimmed line has no white space at either end and is the line's interior, surrounded only by white space |
| Text.TrimmedInnerUnique | internal/application/sync/service.go:41 | a line has at most one interior without white space at its ends |
| Text.TrimSpaceCharacterised | internal/application/sync/service.go:41 | any trimmed interior of a line is its TrimSpace |
| Text.TrimSpaceIdempotent | internal/application/sync/service.go:41 | trimming an already trimmed line changes nothing |
| FileSystem.RemoveAll | internal/application/sync/service.go:157 | afterwards the path no longer exists, and every path not below it is kept |
| FileSystem.WorktreePath | internal/application/sync/service.go:154 | a branch's worktree is `<repo>/.automerger/<branch>` |
| FileSystem.WorktreePathInRoot | internal/application/sync/service.go:56-57 | a branch's worktree lies strictly inside `.automerger` and is never the repository itself (for entries without a `.` or `..` path component) |
| FileSystem.WorktreePathInjective | internal/application/sync/service.go:154 | distinct branch names get distinct worktree paths (for entries without a `.` or `..` path component) |
| FileSystem.RegionsDisjoint | internal/application/sync/cleanup.go:11-16 | nothing inside `.automerger` is inside `.git/worktrees` |
| FileSystem.GitWorktreesOutsideRoot | internal/application/sync/cleanup.go:11-16 | `.git/worktrees` is not inside `.automerger`, so removing the root leaves it alone |
| Git.CheckedOutAfterAppend | internal/application/sync/service.go:115-121 | the branch checked out after two command sequences is found by running the second from where the first left off |
| Git.CheckedOutAfterOne | internal/application/sync/service.go:134-140 | one command moves the shared checkout iff it is a successful checkout in the repository of a ref other than `HEAD`, and then to that ref |
| Git.CheckedOutUnchanged | internal/application/sync/service.go:115-121 | commands other than a checkout in the repository never switch the checked-out branch |
| Service.CheckGitRepo | internal/application/sync/service.go:20-27 | exactly one `rev-parse --git-dir`; it succeeds iff that command succeeds, otherwise the result is "not a repository" |
| Service.KeptLines | internal/application/sync/service.go:40-46 | the file's lines never yield more entries than there are lines |
| Service.Entry | internal/application/sync/service.go:41-45 | a line contributes its trimmed form iff that form is non-empty and does not start with `#` |
| Service.KeptLinesAreEntries | internal/application/sync/service.go:40-46 | every kept branch name is non-empty, trimmed and not a comment |
| Service.KeptLinesAppend | internal/application/sync/service.go:40-46 | the entries of two runs of lines are those of the first followed by those of the second, so file order is kept |
| Service.KeptLinesStep | internal/application/sync/service.go:40-45 | reading one more line appends its trimmed form unless it is blank or a comment |
| Service.KeptLinesMembers | internal/application/sync/service.go:40-46 | a name is kept iff some line of the file yields it as an entry |
| Service.LoadBranches | internal/application/sync/service.go:31-51 | an unreadable file fails with nothing changed; a readable one succeeds, keeps the branches already listed in front and never touches the original branch |
| Service.LoadBranchesEntries | internal/application/sync/service.go:31-51 | after a successful load the earlier branches are followed by the file's entries in file order, each non-empty, trimmed and not a comment |
| Service.AppendEntries | internal/application/sync/service.go:40-46 | the line-by-line loop computes the existing list followed by the entries of the lines |
| Service.AppendBranchLines | internal/application/sync/service.go:38-46 | splitting the content and looping over the lines yields the existing list followed by the file's entries |
| Service.Plan | internal/application/sync/service.go:67-96 | the pipeline is three commands, all run in the branch's worktree: pull of the branch, a merge of `origin/<master>` with message `Merge origin/<master> into <branch>`, and a push of the branch |
| Service.PipelineRunsInCreatedWorktree | internal/application/sync/service.go:56-57 | every pull, merge and push runs in exactly the directory that worktree creation adds for that branch |
| Service.SyncBranch | internal/application/sync/service.go:53-101 | a dry run issues nothing and succeeds; otherwise pull, merge and push run in order until the first failure, which names the failing stage; a step succeeds iff its worktree directory exists and git succeeds, and success means all three succeeded |
| Service.SyncBranchNeedsWorktree | internal/application/sync/service.go:67-73 | when the branch's worktree directory does not exist, the pipeline stops at the pull with a pull failure, whatever git would answer |
| Service.CheckoutMaster | internal/application/sync/service.go:104-124 | without HEAD output it fails before any checkout; otherwise the remembered branch is the output minus its last character, and the call succeeds iff checking out master succeeds |
| Service.RestoreOriginalBranch | internal/application/sync/service.go:127-141 | with no remembered branch it fails and issues nothing; otherwise it issues one checkout of that branch and succeeds iff the checkout does |
| Service.AddWorktree | internal/application/sync/service.go:154-166 | for one branch: everything at or below its worktree path is removed, and afterwards the worktree path alone is there iff the add succeeded (not already registered, accepted by git); nothing elsewhere changes |
| Service.AddedAtShift | internal/application/sync/service.go:152-167 | whether an entry gets its worktree added is the same whether the loop is seen from its start or from after the first entry |
| Service.AddWorktrees | internal/application/sync/service.go:152-167 | one `worktree add` per branch, in list order, carrying on past failures; nothing outside `.automerger` changes, and every new path is the worktree of the first entry of a branch, not registered before and accepted by git (for entries without a `.` or `..` path component) |
| Service.CreateWorkTrees | internal/application/sync/service.go:143-170 | creates the root, then runs the loop; it never fails, leaves everything outside `.automerger` as it was (for entries without a `.` or `..` path component), and adds only the root and worktrees of first entries whose add succeeded |
| Service.AddWorktreesClears | internal/application/sync/service.go:156-166 | whatever lies at or below an entry's worktree path after the loop is the worktree of that entry or a later one, added there: the entry's removal cleared everything else |
| Service.AddWorktreesDuplicateLost | internal/application/sync/service.go:156-166 | a branch listed twice has no worktree after the loop: the second entry removes the first worktree and git refuses to add it again |
| Service.AddWorktreesPreserves | internal/application/sync/service.go:152-167 | a path that no entry's worktree path contains survives the loop |
| Service.AddWorktreesCreates | internal/application/sync/service.go:152-167 | an entry whose worktree is added keeps it to the end of the loop, unless a later entry's worktree path contains it |
| Service.CreateWorkTreesClears | internal/application/sync/service.go:143-170 | after creation, whatever lies at or below an entry's worktree path is the added worktree of that entry or a later one |
| Service.CreateWorkTreesDropsDuplicates | internal/application/sync/service.go:143-170 | after creation, a branch listed twice has no worktree directory at all, when no entry's worktree lies inside its path |
| Service.CreateWorkTreesFailedAdd | internal/application/sync/service.go:143-170 | after creation, a branch whose add git refuses has no worktree directory at all, when no entry's worktree lies inside its path |
| Service.CreateWorkTreesCreates | internal/application/sync/service.go:143-170 | after creation, an entry whose worktree is added has it, unless a later entry's worktree path contains it |
| Cleanup.RemoveEntries | internal/application/sync/cleanup.go:16-23 | every entry below `.git/worktrees` is removed, together with its contents; the directory itself and everything else are kept |
| Cleanup.CleanAllWorktrees | internal/application/sync/cleanup.go:9-26 | afterwards nothing is left at or under `.automerger` or below `.git/worktrees`; every other path and `.git/worktrees` itself are kept |
| Cleanup.CleanIdempotent | internal/application/sync/cleanup.go:9-26 | a second purge right after the first changes nothing |
| Cleanup.CleanNothingToDo | internal/application/sync/cleanup.go:9-26 | with no scratch root and nothing below `.git/worktrees`, the purge changes nothing |
| Controller.FetchOrigin | internal/interfaces/controller/sync_controller.go:28-38 | one `git fetch origin` in the repository; it fails iff the fetch fails |
| Controller.CheckoutAndLoad | internal/interfaces/controller/sync_controller.go:40-47 | HEAD read, master checkout and branch-file read are issued as a prefix of those three; they pass iff all three succeed, and then the list is extended with the file's entries and the captured branch is remembered |
| Controller.Preamble | internal/interfaces/controller/sync_controller.go:24-47 | the steps before the fan-out issue a prefix of: repository check, fetch (not in a dry run), HEAD read, master checkout, branch-file read; they pass iff every step passes, and then the branch list is extended with the file's entries and the original branch is remembered |
| Controller.SyncAll | internal/interfaces/controller/sync_controller.go:55-64 | one SyncBranch per list entry, in list order, duplicates included, all against the same filesystem |
| Controller.PurgeCreatePurge | internal/interfaces/controller/sync_controller.go:49-69 | purging, creating worktrees and purging again removes exactly what lies under `.automerger` and below `.git/worktrees` (for entries without a `.` or `..` path component) |
| Controller.FanOut | internal/interfaces/controller/sync_controller.go:49-73 | the fan-out keeps the service and the earlier commands, syncs one attempt per entry against the created worktrees, succeeds iff the restoring checkout does, and leaves nothing under `.automerger` or below `.git/worktrees` and every other path as it was (for entries without a `.` or `..` path component) |
| Controller.Run | internal/interfaces/controller/sync_controller.go:22-77 | a run succeeds only if every step before the fan-out did; one that stops earlier issues a prefix of those steps, syncs nothing and leaves the filesystem alone; one that gets there has the loaded list, the captured branch and one attempt per entry |
| Controller.SyncAllTrace | internal/interfaces/controller/sync_controller.go:55-64 | the fan-out issues only pull, merge and push, each in the worktree of a listed branch, and nothing in a dry run |
| Controller.SyncAllInsideRoot | internal/interfaces/controller/sync_controller.go:55-64 | every fanned-out command runs strictly inside `.automerger`, never in the shared checkout (for entries without a `.` or `..` path component) |
| Controller.RunReachingFanOut | internal/interfaces/controller/sync_controller.go:22-77 | a run that gets past the branch file issues the whole preamble, then purge, create, fan-out, purge, restore, and returns the restore's result |
| Controller.DriveAppend | internal/interfaces/controller/sync_controller.go:22-77 | the step-order automaton runs over a concatenation as over its two parts in turn |
| Controller.DrivePreamble | internal/interfaces/controller/sync_controller.go:24-47 | every prefix of the preamble is in step order, and the whole preamble ends with the branches loaded |
| Controller.DriveCreating | internal/application/sync/service.go:143-170 | worktree creation commands keep the run in its creation phase |
| Controller.DriveSyncing | internal/interfaces/controller/sync_controller.go:55-67 | pipeline commands inside `.automerger` move the run to, and keep it in, its syncing phase |
| Controller.DriveMiddle | internal/interfaces/controller/sync_controller.go:49-69 | purge, creation, pipelines, purge are in step order and end with the worktrees purged |
| Controller.DriveFanOut | internal/interfaces/controller/sync_controller.go:49-73 | everything after the branch file is in step order; it ends with the checkout restored whenever the restore succeeds |
| Controller.RunRejectsNonRepository | internal/interfaces/controller/sync_controller.go:24-26 | outside a repository the run fails with "not a repository" after one command, touching nothing |
| Controller.RunStopsAfterFailedFetch | internal/interfaces/controller/sync_controller.go:28-38 | a failed fetch ends the run after two commands, before any checkout |
| Controller.RunStopsAfterFailedCheckout | internal/interfaces/controller/sync_controller.go:40-42 | a failed HEAD read or master checkout ends the run before the branch file is read or any worktree is touched |
| Controller.PreambleLeavesMaster | internal/interfaces/controller/sync_controller.go:40-42 | once the master checkout succeeds, master is what is checked out at the end of the preamble (a master named `HEAD` moves nothing) |
| Controller.RunLoadFailureLeavesMaster | internal/interfaces/controller/sync_controller.go:44-47 | an unreadable branch file fails the run with master still checked out: no purge and no restore |
| Controller.FanOutFailedAddFailsPull | internal/interfaces/controller/sync_controller.go:51-64 | in the fan-out, an entry whose `worktree add` git refuses fails at the pull, when no entry's worktree lies inside its path |
| Controller.FanOutDuplicateFailsPull | internal/interfaces/controller/sync_controller.go:51-64 | in the fan-out, both entries of a branch listed twice fail at the pull, when no entry's worktree lies inside its path |
| Controller.RunFailedAddFailsPull | internal/interfaces/controller/sync_controller.go:51-64 | a branch whose `worktree add` git refuses is still synced, and its pipeline fails at the pull, when no entry's worktree lies inside its path |
| Controller.RunDuplicateBranchNeverSyncs | internal/interfaces/controller/sync_controller.go:51-64 | both entries of a branch listed twice fail at the pull, because creation left the branch without a worktree, when no entry's worktree lies inside its path |
| Controller.RunSyncsEveryEntry | internal/interfaces/controller/sync_controller.go:55-64 | a run that reaches the fan-out syncs every entry of the loaded list exactly once, in list order |
| Controller.RunOutcome | internal/interfaces/controller/sync_controller.go:22-77 | a run succeeds iff every step before the fan-out succeeds and the original branch is non-empty and checked out again; per-branch failures never decide the result |
| Controller.FanOutShapeAllowed | internal/interfaces/controller/sync_controller.go:49-73 | purge markers, creation commands, allowed pipeline commands and checkouts in the repository are all allowed |
| Controller.SyncAllAllowed | internal/interfaces/controller/sync_controller.go:55-64 | every fanned-out command is allowed: not in a dry run, in a listed branch's worktree, never in the shared checkout |
| Controller.RunCommandKinds | internal/interfaces/controller/sync_controller.go:28-64 | fetch happens only outside a dry run; pull, merge and push happen only in a loaded branch's worktree; checkouts happen only in the shared checkout (for entries without a `.` or `..` path component) |
| Controller.RunFetchesUnlessDryRun | internal/interfaces/controller/sync_controller.go:28-38 | fetch is issued iff the path is a repository and the run is not a dry run |
| Controller.RunDryRunTouchesNoRemote | internal/interfaces/controller/sync_controller.go:28-64 | a dry run issues no fetch, pull, merge or push, and every branch reports success |
| Controller.RunFollowsProtocol | internal/interfaces/controller/sync_controller.go:22-77 | every run's commands are in step order; a run that reaches the fan-out ends purged or restored, and a successful one ends restored |
| Controller.FanOutShapeCheckout | internal/interfaces/controller/sync_controller.go:49-73 | during the fan-out only the final restoring checkout can switch the shared checkout |
| Controller.FanOutCheckout | internal/interfaces/controller/sync_controller.go:49-73 | the fan-out ends on the remembered branch when the restore succeeds and that name is not `HEAD`, and where it started otherwise |
| Controller.RunRestoresCheckout | internal/interfaces/controller/sync_controller.go:40-73 | a run that reaches the fan-out and succeeds ends on the captured branch, or on master when the capture was `HEAD`; when the restore fails master stays checked out |
| Controller.RunReturnsToStart | internal/interfaces/controller/sync_controller.go:40-73 | a successful run that started on a branch ends on that branch |
| Controller.RunDetachedStartStaysOnMaster | internal/interfaces/controller/sync_controller.go:40-73 | a successful run that started on a detached HEAD ends with master checked out |
| Controller.RunPurgesWorktrees | internal/interfaces/controller/sync_controller.go:49-69 | a run that reaches the fan-out ends with nothing under `.automerger` or below `.git/worktrees`, and every other path as it was (for entries without a `.` or `..` path component) |

## Left out

- Process execution, standard output and error, and the printed progress and error lines are not modelled. A command's effect is the oracle's answer to it.
- Error texts and Go's `%w` wrapping are not modelled. Each failure is a constructor naming its stage and the values it mentions. `Run` wraps the service errors in its own messages; the model keeps the service's failure value.
- The goroutines and the `sync.WaitGroup` of `Run` become a sequential map. The model does not cover interleavings. Two entries for the same branch do not race: creation leaves that branch without a worktree directory, so both goroutines fail at the pull before git starts (`Controller.RunDuplicateBranchNeverSyncs`). Concurrent commands could share one directory only if git refused the first add of a branch and accepted the second, which the constant oracle rules out, or if another entry's worktree is nested inside a branch's path, in which case the pulls of both run against the enclosing main checkout.
- The oracle answers a command the same way every time it is issued in a run. This is a simplification: git's answers can depend on earlier commands, for example a pull after a merge.
- `git worktree add` is modelled only by the worktree directory it creates. The metadata git writes below `.git/worktrees` is not added to the model's filesystem.
- `filepath.Join` is modelled as joining with `/` without cleaning. Branch names containing `..`, or ending in or starting with `/`, are not normalised as Go would. The branch file accepts such names: a line `..` or `.` is kept as an entry. In the program, the worktree path of an entry with a `.` or `..` path component cleans to `.automerger` itself or to a path outside it. The removal at service.go:157 then reaches that path: for `.` it deletes `.automerger` with every worktree created before it, whose branches then fail at the pull; for `..` it deletes the whole repository before git is asked anything. The model's containment and creation properties therefore hold only for branch lists whose entries have no `.` or `..` path component.
- Service.CreateWorkTrees: "everything outside `.automerger` is left as it was" holds only for entries without a `.` or `..` path component; see the `filepath.Join` line above.
- Controller.FanOut: "every other path is as it was" holds only for entries without a `.` or `..` path component; see the `filepath.Join` line above.
- Controller.RunPurgesWorktrees: "every other path is as it was" holds only for entries without a `.` or `..` path component; see the `filepath.Join` line above.
- Service.CheckoutMaster: an empty output from `git rev-parse --abbrev-ref HEAD` makes the program panic when it slices off the trailing newline. The model requires a non-empty output (`HeadOutputNonEmpty`) instead of modelling the panic.
- Text.TrimSpace: only ASCII white space is trimmed. Go's `strings.TrimSpace` also trims Unicode spaces such as U+0085 and U+00A0. The file content is taken as already-decoded characters.
- `args.go` (command-line parsing) and `main.go` (wiring, and printing the error `Run` returns) are not part of this model. `Run` receives the parsed arguments as `Controller.Args`.
- `NewSyncController` and `NewSyncService` only build values; they hold no logic. `Service.NewSyncService` is defined but has no contract worth stating.
- In the code, a failed `git worktree add` does not drop the branch from the fan-out. The branch is still synced; without its directory the pull fails (`Controller.RunFailedAddFailsPull`). The model follows the code.
- The branch list is not de-duplicated, as in the code. A branch listed twice loses its worktree during creation, and both of its pipelines fail at the pull (`Controller.RunDuplicateBranchNeverSyncs`).
- Worktree registrations are tracked only from the start of worktree creation, which follows a purge of `.git/worktrees`. The main checkout has master checked out, so git would refuse a worktree for master; the model leaves that answer to the oracle.
- Branch names that are path prefixes of one another (`a` and `a/b`) put one worktree inside another. The lemmas about a missing worktree assume no entry's worktree lies inside the branch's path; without that, git would find the enclosing repository from the nested directory, which the model does not follow.
- A detached start captures the name `HEAD`, and the final `git checkout HEAD` succeeds without moving: the run reports success with master still checked out (`Controller.RunDetachedStartStaysOnMaster`). The model follows the code.
- Once master is checked out, an unreadable branch file makes `Run` return without purging or restoring the original branch. The model follows the code (`Controller.RunLoadFailureLeavesMaster`).

=== FILE: cleanup.dfy ===
/**
 CleanAllWorktrees: the global worktree purge run before worktrees are
 created and again after every branch has been synced.
 */
module Cleanup {
  import opened FileSystem

  /** Removes every entry below `d` (and everything below those), keeping `d` itself. */
  function RemoveEntries(fs: Tree, d: Path): (r: Tree)
    ensures r <= fs
    ensures forall q :: q in r ==> !StrictlyUnder(q, d)
    ensures forall q :: q in fs && !StrictlyUnder(q, d) ==> q in r
  {
    set q | q in fs && !StrictlyUnder(q, d)
  }

  /**
   Removes the scratch root `<repo>/.automerger` when it exists, then every
   entry of `<repo>/.git/worktrees` when that directory can be read. It has
   no error result: failures are not reported.
   */
  function CleanAllWorktrees(repo: Path, fs: Tree): (r: Tree)
    ensures r <= fs
    ensures forall q :: q in r ==> !Under(q, WorktreesRoot(repo))
    ensures forall q :: q in r ==> !StrictlyUnder(q, GitWorktreesDir(repo))
    ensures forall q :: q in fs && !Under(q, WorktreesRoot(repo)) && !StrictlyUnder(q, GitWorktreesDir(repo)) ==> q in r
    ensures GitWorktreesDir(repo) in fs ==> GitWorktreesDir(repo) in r
  {
    var root := WorktreesRoot(repo);
    var wt := GitWorktreesDir(repo);
    var withoutRoot := if Exists(fs, root) then RemoveAll(fs, root) else fs;
    GitWorktreesOutsideRoot(repo);
    if Exists(withoutRoot, wt) then RemoveEntries(withoutRoot, wt) else withoutRoot
  }

  /** Cleaning twice is cleaning once. */
  lemma CleanIdempotent(repo: Path, fs: Tree)
    ensures CleanAllWorktrees(repo, CleanAllWorktrees(repo, fs)) == CleanAllWorktrees(repo, fs)
  {
    var once := CleanAllWorktrees(repo, fs);
    var twice := CleanAllWorktrees(repo, once);
    assert forall q :: q in once ==> q in twice;
  }

  /** With no scratch root and nothing below git's worktree directory, cleaning changes nothing. */
  lemma CleanNothingToDo(repo: Path, fs: Tree)
    requires !Exists(fs, WorktreesRoot(repo))
    requires forall q :: q in fs ==> !StrictlyUnder(q, GitWorktreesDir(repo))
    ensures CleanAllWorktrees(repo, fs) == fs
  {
    var r := CleanAllWorktrees(repo, fs);
    assert forall q :: q in fs ==> q in r;
  }
}

=== FILE: controller.dfy ===
/**
 SyncController.Run: the whole run as one step sequence over the oracle.
 The goroutine fan-out is a sequential map over the branch list. The
 goroutines share no Go variables, but they do share the repository. Worktree
 creation ends before the fan-out starts, and a branch listed twice is left
 without a worktree, so both of its pipelines fail at the pull
 (RunDuplicateBranchNeverSyncs) instead of racing on one directory.
 */
module Controller {
  import opened Wrappers
  import opened Text
  import opened FileSystem
  import opened Git
  import opened Service
  import opened Cleanup

  /** The command-line arguments Run reads. */
  datatype Args = Args(branchFile: string, master: string, path: string, dryRun: bool)

  /**
   What a run did: the error it returned (if any), the service and the
   filesystem afterwards, every command issued, and the result of each
   fanned-out SyncBranch (printed, never returned).
   */
  datatype Report = Report(outcome: Outcome<Failure>, svc: Service, fs: Tree, trace: seq<Command>, synced: seq<Attempt>)

  // ---------------------------------------------------------------------------
  // Steps before the fan-out

  /** `git fetch origin` in the repository. */
  function FetchOrigin(o: Oracle, repo: string): (r: Attempt)
    ensures r.trace == [Command.FetchOrigin(repo)]
    ensures r.outcome.Pass? <==> o.succeeds(Command.FetchOrigin(repo))
    ensures r.outcome.Fail? ==> r.outcome.error == FetchFailed
  {
    var c := Command.FetchOrigin(repo);
    Attempt(if o.succeeds(c) then Pass else Fail(FetchFailed), [c])
  }

  /** Every command Run issues before the fan-out when none of them fails. */
  function PreambleCommands(args: Args): seq<Command> {
    var p := args.path;
    [RevParseGitDir(p)] + (if args.dryRun then [] else [Command.FetchOrigin(p)])
      + [RevParseHead(p), Checkout(p, args.master), ReadFile(args.branchFile)]
  }

  /** Every step before the fan-out succeeds. */
  predicate ReachesFanOut(o: Oracle, args: Args) {
    && o.succeeds(RevParseGitDir(args.path))
    && (args.dryRun || o.succeeds(Command.FetchOrigin(args.path)))
    && o.head(args.path).Some?
    && o.succeeds(Checkout(args.path, args.master))
    && o.files(args.branchFile).Some?
  }

  /** The branch `rev-parse --abbrev-ref HEAD` reports, with its trailing newline removed. */
  function Captured(o: Oracle, repo: string): string
    requires o.head(repo).Some? && o.head(repo).value != []
  {
    var out := o.head(repo).value;
    out[..|out| - 1]
  }

  /** The commands of the master checkout and the branch loading, when none fails. */
  function LoadCommands(args: Args): seq<Command> {
    [RevParseHead(args.path), Checkout(args.path, args.master), ReadFile(args.branchFile)]
  }

  /** The master checkout, then the branch loading; the first failure ends it. */
  function CheckoutAndLoad(o: Oracle, svc: Service, args: Args): (r: Step)
    requires HeadOutputNonEmpty(o, args.path)
    ensures 1 <= |r.trace| <= 3 && r.trace == LoadCommands(args)[..|r.trace|]
    ensures r.outcome.Pass? <==>
      o.head(args.path).Some? && o.succeeds(Checkout(args.path, args.master)) && o.files(args.branchFile).Some?
    ensures r.outcome.Pass? ==>
      && |r.trace| == 3
      && r.svc.branches == LoadedBranches(o, svc, args)
      && r.svc.original == Captured(o, args.path)
    ensures o.head(args.path).Some? && o.succeeds(Checkout(args.path, args.master)) && o.files(args.branchFile).None? ==>
      r.outcome == Fail(BranchFileUnreadable(args.branchFile)) && |r.trace| == 3
    ensures r.svc.branches == svc.branches || r.outcome.Pass?
  {
    var co := CheckoutMaster(svc, o, args.master, args.path);
    if co.outcome.Fail? then co
    else
      var ld := LoadBranches(co.svc, o, args.branchFile);
      Step(ld.outcome, ld.svc, co.trace + ld.trace)
  }

  /**
   Run up to the fan-out: repository check, fetch (unless dry run), master
   checkout, branch loading; the first failure ends it.
   */
  function Preamble(o: Oracle, svc: Service, args: Args): (r: Step)
    requires HeadOutputNonEmpty(o, args.path)
    ensures 1 <= |r.trace| <= |PreambleCommands(args)|
    ensures r.trace == PreambleCommands(args)[..|r.trace|]
    ensures r.outcome.Pass? <==> ReachesFanOut(o, args)
    ensures r.outcome.Pass? ==>
      && r.trace == PreambleCommands(args)
      && r.svc.branches == LoadedBranches(o, svc, args)
      && r.svc.original == Captured(o, args.path)
    ensures !o.succeeds(RevParseGitDir(args.path)) ==>
      r == Step(Fail(NotGitRepo(args.path)), svc, [RevParseGitDir(args.path)])
    ensures o.succeeds(RevParseGitDir(args.path)) && !args.dryRun && !o.succeeds(Command.FetchOrigin(args.path)) ==>
      r == Step(Fail(FetchFailed), svc, [RevParseGitDir(args.path), Command.FetchOrigin(args.path)])
    ensures (&& o.succeeds(RevParseGitDir(args.path))
             && (args.dryRun || o.succeeds(Command.FetchOrigin(args.path)))
             && o.head(args.path).Some? && o.succeeds(Checkout(args.path, args.master))
             && o.files(args.branchFile).None?) ==>
      r.outcome == Fail(BranchFileUnreadable(args.branchFile)) && r.trace == PreambleCommands(args)
    ensures r.svc.branches == svc.branches || r.outcome.Pass?
  {
    var p := args.path;
    var repo := CheckGitRepo(o, p);
    if repo.outcome.Fail? then Step(Fail(NotGitRepo(p)), svc, repo.trace)
    else
      var fetch := if args.dryRun then Attempt(Pass, []) else FetchOrigin(o, p);
      var t1 := repo.trace + fetch.trace;
      if fetch.outcome.Fail? then Step(fetch.outcome, svc, t1)
      else
        var rest := CheckoutAndLoad(o, svc, args);
        assert PreambleCommands(args) == t1 + LoadCommands(args);
        assert t1 + rest.trace == PreambleCommands(args)[..|t1| + |rest.trace|];
        Step(rest.outcome, rest.svc, t1 + rest.trace)
  }

  // ---------------------------------------------------------------------------
  // Fan-out

  /** One SyncBranch per entry of the branch list, in list order, all against the filesystem `fs`. */
  function SyncAll(o: Oracle, fs: Tree, branches: seq<string>, master: string, repo: string, dryRun: bool): (r: seq<Attempt>)
    ensures |r| == |branches|
    ensures forall k :: 0 <= k < |branches| ==> r[k] == SyncBranch(o, fs, branches[k], master, repo, dryRun)
  {
    if branches == [] then []
    else [SyncBranch(o, fs, branches[0], master, repo, dryRun)] + SyncAll(o, fs, branches[1..], master, repo, dryRun)
  }

  /** The commands of all attempts, one after the other. */
  function Traces(attempts: seq<Attempt>): seq<Command> {
    if attempts == [] then [] else attempts[0].trace + Traces(attempts[1..])
  }

  /**
   The fan-out's commands are pipeline commands, each run in the worktree of a
   listed branch; in dry-run mode there are none.
   */
  lemma {:induction false} SyncAllTrace(o: Oracle, fs: Tree, branches: seq<string>, master: string, repo: string, dryRun: bool)
    ensures var t := Traces(SyncAll(o, fs, branches, master, repo, dryRun));
      && (dryRun ==> t == [])
      && forall c <- t :: IsPipelineCommand(c) && exists b :: b in branches && c.dir == WorktreePath(repo, b)
  {
    if branches != [] {
      SyncAllTrace(o, fs, branches[1..], master, repo, dryRun);
      var first := SyncBranch(o, fs, branches[0], master, repo, dryRun);
      var rest := Traces(SyncAll(o, fs, branches[1..], master, repo, dryRun));
      assert SyncAll(o, fs, branches, master, repo, dryRun)[1..] == SyncAll(o, fs, branches[1..], master, repo, dryRun);
      assert Traces(SyncAll(o, fs, branches, master, repo, dryRun)) == first.trace + rest;
      assert branches[0] in branches;
      assert forall b <- branches[1..] :: b in branches;
    }
  }

  /** Every fanned-out command runs strictly inside the scratch root, so never in the shared checkout. */
  lemma SyncAllInsideRoot(o: Oracle, fs: Tree, branches: seq<string>, master: string, repo: string, dryRun: bool)
    ensures forall c <- Traces(SyncAll(o, fs, branches, master, repo, dryRun)) ::
      IsPipelineCommand(c) && StrictlyUnder(c.dir, WorktreesRoot(repo)) && c.dir != repo
  {
    SyncAllTrace(o, fs, branches, master, repo, dryRun);
    forall c <- Traces(SyncAll(o, fs, branches, master, repo, dryRun))
      ensures StrictlyUnder(c.dir, WorktreesRoot(repo)) && c.dir != repo
    {
      var b :| b in branches && c.dir == WorktreePath(repo, b);
      WorktreePathInRoot(repo, b);
    }
  }

  /**
   Purging, creating and purging again removes everything at or below the
   scratch root and below git's worktree directory, and nothing else.
   */
  lemma PurgeCreatePurge(o: Oracle, branches: seq<string>, repo: Path, fs: Tree)
    ensures var r := CleanAllWorktrees(repo, CreateWorkTrees(o, branches, repo, CleanAllWorktrees(repo, fs)).fs);
      && (forall q :: q in r ==> !Under(q, WorktreesRoot(repo)) && !StrictlyUnder(q, GitWorktreesDir(repo)))
      && (forall q :: !Under(q, WorktreesRoot(repo)) && !StrictlyUnder(q, GitWorktreesDir(repo)) ==> (q in r <==> q in fs))
  {
    var once := CleanAllWorktrees(repo, fs);
    var created := CreateWorkTrees(o, branches, repo, once).fs;
    var r := CleanAllWorktrees(repo, created);
    forall q | !Under(q, WorktreesRoot(repo)) && !StrictlyUnder(q, GitWorktreesDir(repo))
      ensures q in r <==> q in fs
    {
      assert q in created <==> q in once;
    }
  }

  /** The worktrees the fan-out creates, after the first purge. */
  function Created(o: Oracle, svc: Service, fs: Tree, args: Args): Materialised {
    CreateWorkTrees(o, svc.branches, args.path, CleanAllWorktrees(args.path, fs))
  }

  /** The commands of the fan-out: clean, create, sync every branch, clean, restore. */
  function FanOutTrace(o: Oracle, svc: Service, fs: Tree, args: Args): seq<Command> {
    var p := args.path;
    [CleanWorktrees(p)]
      + Created(o, svc, fs, args).trace
      + Traces(SyncAll(o, Created(o, svc, fs, args).fs, svc.branches, args.master, p, args.dryRun))
      + [CleanWorktrees(p)]
      + RestoreOriginalBranch(svc, o, p).trace
  }

  /**
   Run after the branches are loaded: purge, create, sync every entry against
   the created worktrees, purge again, restore. Only the restore decides the
   result, and the purge leaves no trace of the worktrees.
   */
  function FanOut(o: Oracle, svc: Service, fs: Tree, args: Args, before: seq<Command>): (r: Report)
    ensures r.svc == svc
    ensures |before| <= |r.trace| && r.trace[..|before|] == before
    ensures r.outcome.Pass? <==> svc.original != [] && o.succeeds(Checkout(args.path, svc.original))
    ensures |r.synced| == |svc.branches|
    ensures forall k :: 0 <= k < |r.synced| ==>
      r.synced[k] == SyncBranch(o, Created(o, svc, fs, args).fs, svc.branches[k], args.master, args.path, args.dryRun)
    ensures forall q :: q in r.fs ==> !Under(q, WorktreesRoot(args.path)) && !StrictlyUnder(q, GitWorktreesDir(args.path))
    ensures forall q :: !Under(q, WorktreesRoot(args.path)) && !StrictlyUnder(q, GitWorktreesDir(args.path)) ==>
      (q in r.fs <==> q in fs)
  {
    var p := args.path;
    var created := Created(o, svc, fs, args);
    PurgeCreatePurge(o, svc.branches, p, fs);
    assert (before + FanOutTrace(o, svc, fs, args))[..|before|] == before;
    Report(RestoreOriginalBranch(svc, o, p).outcome, svc, CleanAllWorktrees(p, created.fs),
      before + FanOutTrace(o, svc, fs, args), SyncAll(o, created.fs, svc.branches, args.master, p, args.dryRun))
  }

  /** The branch list after a successful load: the listed branches, then the file's entries. */
  function LoadedBranches(o: Oracle, svc: Service, args: Args): seq<string>
    requires o.files(args.branchFile).Some?
  {
    svc.branches + KeptLines(Split(o.files(args.branchFile).value, '\n'))
  }

  /**
   SyncController.Run. It succeeds only when every step before the fan-out
   did; a run that stops earlier touches no worktree and syncs nothing; one that
   gets there syncs one attempt per loaded entry.
   */
  function Run(o: Oracle, svc: Service, fs: Tree, args: Args): (r: Report)
    requires HeadOutputNonEmpty(o, args.path)
    ensures r.outcome.Pass? ==> ReachesFanOut(o, args)
    ensures !ReachesFanOut(o, args) ==>
      && r.fs == fs && r.synced == []
      && |r.trace| <= |PreambleCommands(args)| && r.trace == PreambleCommands(args)[..|r.trace|]
    ensures ReachesFanOut(o, args) ==>
      && |PreambleCommands(args)| <= |r.trace| && r.trace[..|PreambleCommands(args)|] == PreambleCommands(args)
      && r.svc.branches == LoadedBranches(o, svc, args)
      && |r.synced| == |r.svc.branches|
      && r.svc.original == Captured(o, args.path)
  {
    var pre := Preamble(o, svc, args);
    if pre.outcome.Fail? then Report(pre.outcome, pre.svc, fs, pre.trace, [])
    else FanOut(o, pre.svc, fs, args, pre.trace)
  }

  /** A run that reaches the fan-out issues the whole preamble, then the fan-out. */
  lemma RunReachingFanOut(o: Oracle, svc: Service, fs: Tree, args: Args)
    requires HeadOutputNonEmpty(o, args.path)
    requires ReachesFanOut(o, args)
    ensures var r := Run(o, svc, fs, args);
      && r.svc == Preamble(o, svc, args).svc
      && r.trace == PreambleCommands(args) + FanOutTrace(o, r.svc, fs, args)
      && r.outcome == RestoreOriginalBranch(r.svc, o, args.path).outcome
  {
  }

  // ---------------------------------------------------------------------------
  // The step order as an automaton over the trace

  /** The last kind of step a run has issued. */
  datatype Phase =
    | Start | RepoChecked | Fetched | HeadRead | OnMaster | Loaded
    | Creating | Syncing | Purged | Restored

  /** The phase after command `c`, or None when `c` may not come next. */
  function Advance(ph: Phase, c: Command, args: Args): Option<Phase> {
    var p := args.path;
    match ph
    case Start =>
      if c == RevParseGitDir(p) then Some(RepoChecked) else None
    case RepoChecked =>
      if c == Command.FetchOrigin(p) && !args.dryRun then Some(Fetched)
      else if c == RevParseHead(p) && args.dryRun then Some(HeadRead)
      else None
    case Fetched =>
      if c == RevParseHead(p) then Some(HeadRead) else None
    case HeadRead =>
      if c == Checkout(p, args.master) then Some(OnMaster) else None
    case OnMaster =>
      if c == ReadFile(args.branchFile) then Some(Loaded) else None
    case Loaded =>
      if c == CleanWorktrees(p) then Some(Creating) else None
    case Creating =>
      if IsCreateCommand(c) then Some(Creating)
      else if IsPipelineCommand(c) && !args.dryRun && StrictlyUnder(c.dir, WorktreesRoot(p)) then Some(Syncing)
      else if c == CleanWorktrees(p) then Some(Purged)
      else None
    case Syncing =>
      if IsPipelineCommand(c) && StrictlyUnder(c.dir, WorktreesRoot(p)) then Some(Syncing)
      else if c == CleanWorktrees(p) then Some(Purged)
      else None
    case Purged =>
      if c.Checkout? && c.dir == p then Some(Restored) else None
    case Restored =>
      None
  }

  /** The phase after the whole of `trace`, or None when some command came out of order. */
  function Drive(ph: Phase, trace: seq<Command>, args: Args): Option<Phase>
    decreases |trace|
  {
    if trace == [] then Some(ph)
    else
      match Advance(ph, trace[0], args)
      case None => None
      case Some(next) => Drive(next, trace[1..], args)
  }

  /** Driving through `a + b` is driving through `a`, then through `b`. */
  lemma {:induction false} DriveAppend(ph: Phase, a: seq<Command>, b: seq<Command>, args: Args)
    ensures Drive(ph, a + b, args) ==
      match Drive(ph, a, args)
      case None => None
      case Some(mid) => Drive(mid, b, args)
    decreases |a|
  {
    if a == [] {
      assert a + b == b;
    } else {
      assert (a + b)[0] == a[0];
      assert (a + b)[1..] == a[1..] + b;
      match Advance(ph, a[0], args)
      case None =>
      case Some(next) => DriveAppend(next, a[1..], b, args);
    }
  }

  /** Driving through one command is one step of the automaton. */
  lemma DriveOne(ph: Phase, c: Command, args: Args)
    ensures Drive(ph, [c], args) == Advance(ph, c, args)
  {
    assert [c][1..] == [];
  }

  /** The preamble, and each of its prefixes, is accepted; the whole of it ends with the branches loaded. */
  lemma DrivePreamble(args: Args, n: nat)
    requires n <= |PreambleCommands(args)|
    ensures Drive(Start, PreambleCommands(args)[..n], args).Some?
    ensures Drive(Start, PreambleCommands(args), args) == Some(Loaded)
  {
    var all := PreambleCommands(args);
    var p := args.path;
    var fetch := if args.dryRun then [RevParseGitDir(p)] else [RevParseGitDir(p), Command.FetchOrigin(p)];
    assert all == fetch + [RevParseHead(p)] + [Checkout(p, args.master)] + [ReadFile(args.branchFile)];
    DriveOne(Start, RevParseGitDir(p), args);
    if !args.dryRun {
      DriveAppend(Start, [RevParseGitDir(p)], [Command.FetchOrigin(p)], args);
      DriveOne(RepoChecked, Command.FetchOrigin(p), args);
      assert [RevParseGitDir(p)] + [Command.FetchOrigin(p)] == fetch;
    }
    var after := if args.dryRun then RepoChecked else Fetched;
    assert Drive(Start, fetch, args) == Some(after);
    DriveOne(after, RevParseHead(p), args);
    DriveAppend(Start, fetch, [RevParseHead(p)], args);
    DriveOne(HeadRead, Checkout(p, args.master), args);
    DriveAppend(Start, fetch + [RevParseHead(p)], [Checkout(p, args.master)], args);
    DriveOne(OnMaster, ReadFile(args.branchFile), args);
    DriveAppend(Start, fetch + [RevParseHead(p)] + [Checkout(p, args.master)], [ReadFile(args.branchFile)], args);
    assert all == all[..n] + all[n..];
    DriveAppend(Start, all[..n], all[n..], args);
  }

  /** Worktree-creation commands keep the automaton in the creating phase. */
  lemma {:induction false} DriveCreating(t: seq<Command>, args: Args)
    requires forall c <- t :: IsCreateCommand(c)
    ensures Drive(Creating, t, args) == Some(Creating)
    decreases |t|
  {
    if t != [] {
      assert forall c <- t[1..] :: c in t;
      DriveCreating(t[1..], args);
    }
  }

  /** Pipeline commands inside the scratch root move the automaton to, and keep it in, the syncing phase. */
  lemma {:induction false} DriveSyncing(ph: Phase, t: seq<Command>, args: Args)
    requires ph == Creating || ph == Syncing
    requires ph == Creating && t != [] ==> !args.dryRun
    requires forall c <- t :: IsPipelineCommand(c) && StrictlyUnder(c.dir, WorktreesRoot(args.path))
    ensures Drive(ph, t, args) == Some(if t == [] then ph else Syncing)
    decreases |t|
  {
    if t != [] {
      assert t[0] in t;
      assert forall c <- t[1..] :: c in t;
      DriveSyncing(Syncing, t[1..], args);
    }
  }

  /** Clean, the creation commands, the pipeline commands, clean: accepted, ending purged. */
  lemma DriveMiddle(created: seq<Command>, synced: seq<Command>, args: Args)
    requires forall c <- created :: IsCreateCommand(c)
    requires forall c <- synced :: IsPipelineCommand(c) && StrictlyUnder(c.dir, WorktreesRoot(args.path))
    requires args.dryRun ==> synced == []
    ensures Drive(Loaded, [CleanWorktrees(args.path)] + created + synced + [CleanWorktrees(args.path)], args) == Some(Purged)
  {
    var clean := [CleanWorktrees(args.path)];
    DriveOne(Loaded, CleanWorktrees(args.path), args);
    DriveCreating(created, args);
    DriveAppend(Loaded, clean, created, args);
    DriveSyncing(Creating, synced, args);
    DriveAppend(Loaded, clean + created, synced, args);
    var last := if synced == [] then Creating else Syncing;
    DriveOne(last, CleanWorktrees(args.path), args);
    DriveAppend(Loaded, clean + created + synced, clean, args);
  }

  /** The shape of the fan-out's commands is accepted from the loaded phase; a restoring checkout ends it restored. */
  lemma DriveFanOutShape(created: seq<Command>, synced: seq<Command>, restored: seq<Command>, args: Args)
    requires forall c <- created :: IsCreateCommand(c)
    requires forall c <- synced :: IsPipelineCommand(c) && StrictlyUnder(c.dir, WorktreesRoot(args.path))
    requires args.dryRun ==> synced == []
    requires restored == [] || (|restored| == 1 && restored[0].Checkout? && restored[0].dir == args.path)
    ensures Drive(Loaded, [CleanWorktrees(args.path)] + created + synced + [CleanWorktrees(args.path)] + restored, args)
      == Some(if restored == [] then Purged else Restored)
  {
    var middle := [CleanWorktrees(args.path)] + created + synced + [CleanWorktrees(args.path)];
    DriveMiddle(created, synced, args);
    if restored != [] {
      DriveOne(Purged, restored[0], args);
      assert restored == [restored[0]];
    }
    DriveAppend(Loaded, middle, restored, args);
  }

  /** The fan-out is accepted from the loaded phase; it ends restored exactly when the restore succeeds. */
  lemma DriveFanOut(o: Oracle, svc: Service, fs: Tree, args: Args)
    ensures var ph := Drive(Loaded, FanOutTrace(o, svc, fs, args), args);
      && (ph == Some(Purged) || ph == Some(Restored))
      && (RestoreOriginalBranch(svc, o, args.path).outcome.Pass? ==> ph == Some(Restored))
  {
    var p := args.path;
    SyncAllTrace(o, Created(o, svc, fs, args).fs, svc.branches, args.master, p, args.dryRun);
    SyncAllInsideRoot(o, Created(o, svc, fs, args).fs, svc.branches, args.master, p, args.dryRun);
    DriveFanOutShape(Created(o, svc, fs, args).trace,
      Traces(SyncAll(o, Created(o, svc, fs, args).fs, svc.branches, args.master, p, args.dryRun)),
      RestoreOriginalBranch(svc, o, p).trace, args);
  }

  // ---------------------------------------------------------------------------
  // Properties of Run

  /** Outside a repository, Run reports it and issues nothing else. */
  lemma RunRejectsNonRepository(o: Oracle, svc: Service, fs: Tree, args: Args)
    requires HeadOutputNonEmpty(o, args.path)
    requires !o.succeeds(RevParseGitDir(args.path))
    ensures var r := Run(o, svc, fs, args);
      && r.outcome == Fail(NotGitRepo(args.path))
      && r.trace == [RevParseGitDir(args.path)]
      && r.fs == fs && r.svc == svc && r.synced == []
  {
  }

  /** A failed fetch ends the run before any checkout. */
  lemma RunStopsAfterFailedFetch(o: Oracle, svc: Service, fs: Tree, args: Args)
    requires HeadOutputNonEmpty(o, args.path)
    requires o.succeeds(RevParseGitDir(args.path)) && !args.dryRun
    requires !o.succeeds(Command.FetchOrigin(args.path))
    ensures var r := Run(o, svc, fs, args);
      && r.outcome == Fail(FetchFailed)
      && r.trace == [RevParseGitDir(args.path), Command.FetchOrigin(args.path)]
      && r.fs == fs && r.svc == svc && r.synced == []
  {
  }

  /** When reading HEAD or the master checkout fails, no branch is loaded and no worktree is touched. */
  lemma RunStopsAfterFailedCheckout(o: Oracle, svc: Service, fs: Tree, args: Args)
    requires HeadOutputNonEmpty(o, args.path)
    requires o.succeeds(RevParseGitDir(args.path))
    requires args.dryRun || o.succeeds(Command.FetchOrigin(args.path))
    requires o.head(args.path).None? || !o.succeeds(Checkout(args.path, args.master))
    ensures var r := Run(o, svc, fs, args);
      && r.outcome.Fail?
      && r.fs == fs && r.synced == [] && r.svc.branches == svc.branches
      && r.trace == PreambleCommands(args)[..|r.trace|]
      && |r.trace| < |PreambleCommands(args)|
  {
  }

  /** Where the shared checkout stands once master is checked out from `current`: `HEAD` names no branch and moves nothing. */
  function AfterMasterCheckout(args: Args, current: string): string {
    if args.master == "HEAD" then current else args.master
  }

  /** The preamble leaves master checked out when the master checkout succeeded. */
  lemma PreambleLeavesMaster(o: Oracle, args: Args, current: string)
    requires o.succeeds(Checkout(args.path, args.master))
    ensures CheckedOutAfter(o, args.path, current, PreambleCommands(args)) == AfterMasterCheckout(args, current)
  {
    var p := args.path;
    var fetch := [RevParseGitDir(p)] + (if args.dryRun then [] else [Command.FetchOrigin(p)]) + [RevParseHead(p)];
    assert PreambleCommands(args) == fetch + [Checkout(p, args.master)] + [ReadFile(args.branchFile)];
    CheckedOutUnchanged(o, p, current, fetch);
    CheckedOutAfterAppend(o, p, current, fetch, [Checkout(p, args.master)]);
    CheckedOutAfterOne(o, p, current, Checkout(p, args.master));
    CheckedOutAfterAppend(o, p, current, fetch + [Checkout(p, args.master)], [ReadFile(args.branchFile)]);
    CheckedOutAfterOne(o, p, AfterMasterCheckout(args, current), ReadFile(args.branchFile));
  }

  /**
   When the branch file cannot be read, Run fails after checking out master,
   without cleaning up and without restoring the original branch.
   */
  lemma RunLoadFailureLeavesMaster(o: Oracle, svc: Service, fs: Tree, args: Args, current: string)
    requires HeadOutputNonEmpty(o, args.path)
    requires o.succeeds(RevParseGitDir(args.path))
    requires args.dryRun || o.succeeds(Command.FetchOrigin(args.path))
    requires o.head(args.path).Some? && o.succeeds(Checkout(args.path, args.master))
    requires o.files(args.branchFile).None?
    ensures var r := Run(o, svc, fs, args);
      && r.outcome == Fail(BranchFileUnreadable(args.branchFile))
      && r.fs == fs && r.synced == []
      && CleanWorktrees(args.path) !in r.trace
      && CheckedOutAfter(o, args.path, current, r.trace) == AfterMasterCheckout(args, current)
  {
    PreambleLeavesMaster(o, args, current);
  }

  /** A run that reaches the fan-out syncs every loaded entry exactly once, in list order. */
  lemma RunSyncsEveryEntry(o: Oracle, svc: Service, fs: Tree, args: Args)
    requires HeadOutputNonEmpty(o, args.path)
    requires ReachesFanOut(o, args)
    ensures var r := Run(o, svc, fs, args);
      && r.svc.branches == LoadedBranches(o, svc, args)
      && |r.synced| == |r.svc.branches|
      && forall k :: 0 <= k < |r.synced| ==>
           r.synced[k] == SyncBranch(o, Created(o, r.svc, fs, args).fs, r.svc.branches[k], args.master, args.path, args.dryRun)
  {
  }

  /** In the fan-out, an entry whose `worktree add` git refuses fails at the pull. */
  lemma FanOutFailedAddFailsPull(o: Oracle, svc: Service, fs: Tree, args: Args, before: seq<Command>, k: int)
    requires !args.dryRun && 0 <= k < |svc.branches|
    requires !o.succeeds(AddCommand(args.path, svc.branches[k]))
    requires forall m :: 0 <= m < |svc.branches| ==>
      !StrictlyUnder(WorktreePath(args.path, svc.branches[m]), WorktreePath(args.path, svc.branches[k]))
    ensures var b := svc.branches[k];
      FanOut(o, svc, fs, args, before).synced[k] == Attempt(Fail(PullFailed(b)), [Pull(WorktreePath(args.path, b), b)])
  {
    CreateWorkTreesFailedAdd(o, svc.branches, args.path, CleanAllWorktrees(args.path, fs), k);
    SyncBranchNeedsWorktree(o, Created(o, svc, fs, args).fs, svc.branches[k], args.master, args.path);
  }

  /** In the fan-out, both entries of a branch listed twice fail at the pull. */
  lemma FanOutDuplicateFailsPull(o: Oracle, svc: Service, fs: Tree, args: Args, before: seq<Command>, i: int, j: int)
    requires !args.dryRun && 0 <= i < j < |svc.branches| && svc.branches[i] == svc.branches[j]
    requires forall m :: 0 <= m < |svc.branches| ==>
      !StrictlyUnder(WorktreePath(args.path, svc.branches[m]), WorktreePath(args.path, svc.branches[i]))
    ensures var b := svc.branches[i];
      var failed := Attempt(Fail(PullFailed(b)), [Pull(WorktreePath(args.path, b), b)]);
      FanOut(o, svc, fs, args, before).synced[i] == failed && FanOut(o, svc, fs, args, before).synced[j] == failed
  {
    CreateWorkTreesDropsDuplicates(o, svc.branches, args.path, CleanAllWorktrees(args.path, fs), i, j);
    SyncBranchNeedsWorktree(o, Created(o, svc, fs, args).fs, svc.branches[i], args.master, args.path);
  }

  /**
   A branch whose `worktree add` git refuses has no worktree, so its pipeline
   fails at the pull (exec cannot enter the missing directory), whatever git
   would have answered.
   */
  lemma RunFailedAddFailsPull(o: Oracle, svc: Service, fs: Tree, args: Args, k: int)
    requires HeadOutputNonEmpty(o, args.path) && ReachesFanOut(o, args) && !args.dryRun
    requires 0 <= k < |LoadedBranches(o, svc, args)|
    requires !o.succeeds(AddCommand(args.path, LoadedBranches(o, svc, args)[k]))
    requires forall m :: 0 <= m < |LoadedBranches(o, svc, args)| ==>
      !StrictlyUnder(WorktreePath(args.path, LoadedBranches(o, svc, args)[m]), WorktreePath(args.path, LoadedBranches(o, svc, args)[k]))
    ensures var b := LoadedBranches(o, svc, args)[k];
      Run(o, svc, fs, args).synced[k] == Attempt(Fail(PullFailed(b)), [Pull(WorktreePath(args.path, b), b)])
  {
    var pre := Preamble(o, svc, args);
    FanOutFailedAddFailsPull(o, pre.svc, fs, args, pre.trace, k);
  }

  /**
   A branch listed twice has no worktree after creation (the second add is
   refused once the first worktree's directory is removed), so both of its
   pipelines fail at the pull.
   */
  lemma RunDuplicateBranchNeverSyncs(o: Oracle, svc: Service, fs: Tree, args: Args, i: int, j: int)
    requires HeadOutputNonEmpty(o, args.path) && ReachesFanOut(o, args) && !args.dryRun
    requires 0 <= i < j < |LoadedBranches(o, svc, args)| && LoadedBranches(o, svc, args)[i] == LoadedBranches(o, svc, args)[j]
    requires forall m :: 0 <= m < |LoadedBranches(o, svc, args)| ==>
      !StrictlyUnder(WorktreePath(args.path, LoadedBranches(o, svc, args)[m]), WorktreePath(args.path, LoadedBranches(o, svc, args)[i]))
    ensures var b := LoadedBranches(o, svc, args)[i];
      var failed := Attempt(Fail(PullFailed(b)), [Pull(WorktreePath(args.path, b), b)]);
      Run(o, svc, fs, args).synced[i] == failed && Run(o, svc, fs, args).synced[j] == failed
  {
    var pre := Preamble(o, svc, args);
    FanOutDuplicateFailsPull(o, pre.svc, fs, args, pre.trace, i, j);
  }

  /**
   Run succeeds exactly when every step before the fan-out succeeded and the
   original branch was restored; per-branch failures never reach the result.
   */
  lemma RunOutcome(o: Oracle, svc: Service, fs: Tree, args: Args)
    requires HeadOutputNonEmpty(o, args.path)
    ensures Run(o, svc, fs, args).outcome.Pass? <==>
      && ReachesFanOut(o, args)
      && Captured(o, args.path) != []
      && o.succeeds(Checkout(args.path, Captured(o, args.path)))
  {
  }

  /** Fetch only outside dry-run mode, pipeline commands only in a loaded branch's worktree, checkouts only in the shared checkout. */
  predicate CommandAllowed(c: Command, args: Args, branches: seq<string>) {
    && (c.FetchOrigin? ==> !args.dryRun)
    && (IsPipelineCommand(c) ==>
          && !args.dryRun && c.dir != args.path
          && exists b :: b in branches && c.dir == WorktreePath(args.path, b))
    && (c.Checkout? ==> c.dir == args.path)
  }

  /** Every preamble command is allowed. */
  lemma PreambleAllowed(args: Args, branches: seq<string>, n: nat)
    requires n <= |PreambleCommands(args)|
    ensures forall c <- PreambleCommands(args)[..n] :: CommandAllowed(c, args, branches)
  {
    var all := PreambleCommands(args);
    assert forall c <- all[..n] :: c in all;
  }

  /** Every fanned-out command is allowed. */
  lemma FanOutShapeAllowed(created: seq<Command>, synced: seq<Command>, restored: seq<Command>, args: Args, branches: seq<string>)
    requires forall c <- created :: IsCreateCommand(c)
    requires forall c <- synced :: CommandAllowed(c, args, branches)
    requires forall c <- restored :: c.Checkout? && c.dir == args.path
    ensures forall c <- [CleanWorktrees(args.path)] + created + synced + [CleanWorktrees(args.path)] + restored ::
      CommandAllowed(c, args, branches)
  {
  }

  /** Every command of the per-branch pipelines is allowed. */
  lemma SyncAllAllowed(o: Oracle, fs: Tree, branches: seq<string>, args: Args)
    ensures forall c <- Traces(SyncAll(o, fs, branches, args.master, args.path, args.dryRun)) :: CommandAllowed(c, args, branches)
  {
    SyncAllTrace(o, fs, branches, args.master, args.path, args.dryRun);
    SyncAllInsideRoot(o, fs, branches, args.master, args.path, args.dryRun);
  }

  /** Every command of the fan-out is allowed. */
  lemma FanOutAllowed(o: Oracle, svc: Service, fs: Tree, args: Args)
    ensures forall c <- FanOutTrace(o, svc, fs, args) :: CommandAllowed(c, args, svc.branches)
  {
    var p := args.path;
    SyncAllAllowed(o, Created(o, svc, fs, args).fs, svc.branches, args);
    FanOutShapeAllowed(Created(o, svc, fs, args).trace,
      Traces(SyncAll(o, Created(o, svc, fs, args).fs, svc.branches, args.master, p, args.dryRun)),
      RestoreOriginalBranch(svc, o, p).trace, args, svc.branches);
  }

  /**
   Fetch runs only outside dry-run mode; every pull, merge and push runs in the
   worktree of a loaded branch, never in the shared checkout; every checkout
   runs in the shared checkout.
   */
  lemma RunCommandKinds(o: Oracle, svc: Service, fs: Tree, args: Args)
    requires HeadOutputNonEmpty(o, args.path)
    ensures var r := Run(o, svc, fs, args);
      forall c <- r.trace :: CommandAllowed(c, args, r.svc.branches)
  {
    var r := Run(o, svc, fs, args);
    PreambleAllowed(args, r.svc.branches, |Preamble(o, svc, args).trace|);
    if ReachesFanOut(o, args) {
      RunReachingFanOut(o, svc, fs, args);
      FanOutAllowed(o, r.svc, fs, args);
    }
  }

  /** Fetch is issued exactly when the path is a repository and the run is not a dry run. */
  lemma RunFetchesUnlessDryRun(o: Oracle, svc: Service, fs: Tree, args: Args)
    requires HeadOutputNonEmpty(o, args.path)
    ensures Command.FetchOrigin(args.path) in Run(o, svc, fs, args).trace
      <==> o.succeeds(RevParseGitDir(args.path)) && !args.dryRun
  {
    RunCommandKinds(o, svc, fs, args);
    var pre := Preamble(o, svc, args);
    if o.succeeds(RevParseGitDir(args.path)) && !args.dryRun {
      assert pre.trace[1] == Command.FetchOrigin(args.path);
      if ReachesFanOut(o, args) {
        RunReachingFanOut(o, svc, fs, args);
      }
      assert pre.trace[1] in Run(o, svc, fs, args).trace;
    }
  }

  /** A dry run issues no fetch, pull, merge or push, and every branch reports success. */
  lemma RunDryRunTouchesNoRemote(o: Oracle, svc: Service, fs: Tree, args: Args)
    requires HeadOutputNonEmpty(o, args.path)
    requires args.dryRun
    ensures var r := Run(o, svc, fs, args);
      && (forall c <- r.trace :: !c.FetchOrigin? && !IsPipelineCommand(c))
      && (forall k :: 0 <= k < |r.synced| ==> r.synced[k] == Attempt(Pass, []))
  {
    RunCommandKinds(o, svc, fs, args);
  }

  /** Every run issues its commands in the order the automaton allows; a run that reaches the fan-out ends cleaned up. */
  lemma RunFollowsProtocol(o: Oracle, svc: Service, fs: Tree, args: Args)
    requires HeadOutputNonEmpty(o, args.path)
    ensures var r := Run(o, svc, fs, args);
      && Drive(Start, r.trace, args).Some?
      && (ReachesFanOut(o, args) ==> Drive(Start, r.trace, args) in {Some(Purged), Some(Restored)})
      && (r.outcome.Pass? ==> Drive(Start, r.trace, args) == Some(Restored))
  {
    var pre := Preamble(o, svc, args);
    DrivePreamble(args, |pre.trace|);
    if ReachesFanOut(o, args) {
      RunReachingFanOut(o, svc, fs, args);
      DriveFanOut(o, pre.svc, fs, args);
      DriveAppend(Start, PreambleCommands(args), FanOutTrace(o, pre.svc, fs, args), args);
    }
  }

  /** Across the shape of the fan-out, only the final restoring checkout can switch the shared checkout. */
  lemma FanOutShapeCheckout(o: Oracle, repo: string, current: string, created: seq<Command>, synced: seq<Command>, restored: seq<Command>)
    requires forall c <- created :: IsCreateCommand(c)
    requires forall c <- synced :: IsPipelineCommand(c)
    requires restored == [] || (|restored| == 1 && restored[0].Checkout? && restored[0].dir == repo)
    ensures CheckedOutAfter(o, repo, current, [CleanWorktrees(repo)] + created + synced + [CleanWorktrees(repo)] + restored)
      == if restored != [] && Switches(o, repo, restored[0]) then restored[0].ref else current
  {
    var middle := [CleanWorktrees(repo)] + created + synced + [CleanWorktrees(repo)];
    CheckedOutUnchanged(o, repo, current, middle);
    CheckedOutAfterAppend(o, repo, current, middle, restored);
    if restored != [] {
      CheckedOutAfterOne(o, repo, current, restored[0]);
      assert restored == [restored[0]];
    }
  }

  /**
   The fan-out leaves the shared checkout on the remembered branch when the
   restore succeeds and that branch is not `HEAD`, and where it found it otherwise.
   */
  lemma FanOutCheckout(o: Oracle, svc: Service, fs: Tree, args: Args, start: string)
    ensures CheckedOutAfter(o, args.path, start, FanOutTrace(o, svc, fs, args))
      == if RestoreOriginalBranch(svc, o, args.path).outcome.Pass? && svc.original != "HEAD" then svc.original else start
  {
    var p := args.path;
    SyncAllTrace(o, Created(o, svc, fs, args).fs, svc.branches, args.master, p, args.dryRun);
    FanOutShapeCheckout(o, p, start, Created(o, svc, fs, args).trace,
      Traces(SyncAll(o, Created(o, svc, fs, args).fs, svc.branches, args.master, p, args.dryRun)),
      RestoreOriginalBranch(svc, o, p).trace);
  }

  /**
   A run that reaches the fan-out and succeeds leaves the shared checkout on the
   branch captured at the start; when that capture is `HEAD` (a detached start)
   or the restore fails, master stays checked out.
   */
  lemma RunRestoresCheckout(o: Oracle, svc: Service, fs: Tree, args: Args, current: string)
    requires HeadOutputNonEmpty(o, args.path)
    requires ReachesFanOut(o, args)
    ensures var r := Run(o, svc, fs, args);
      && (r.outcome.Pass? ==>
            CheckedOutAfter(o, args.path, current, r.trace)
              == if Captured(o, args.path) != "HEAD" then Captured(o, args.path) else AfterMasterCheckout(args, current))
      && (r.outcome.Fail? ==> CheckedOutAfter(o, args.path, current, r.trace) == AfterMasterCheckout(args, current))
  {
    var pre := Preamble(o, svc, args);
    RunReachingFanOut(o, svc, fs, args);
    PreambleLeavesMaster(o, args, current);
    FanOutCheckout(o, pre.svc, fs, args, AfterMasterCheckout(args, current));
    CheckedOutAfterAppend(o, args.path, current, PreambleCommands(args), FanOutTrace(o, pre.svc, fs, args));
  }

  /** A successful run that started on a branch ends on that branch. */
  lemma RunReturnsToStart(o: Oracle, svc: Service, fs: Tree, args: Args)
    requires HeadOutputNonEmpty(o, args.path)
    requires o.head(args.path).Some? && Captured(o, args.path) != "HEAD"
    requires Run(o, svc, fs, args).outcome.Pass?
    ensures CheckedOutAfter(o, args.path, Captured(o, args.path), Run(o, svc, fs, args).trace) == Captured(o, args.path)
  {
    RunRestoresCheckout(o, svc, fs, args, Captured(o, args.path));
  }

  /**
   A successful run that started on a detached HEAD ends with master checked
   out: the captured name is `HEAD`, and checking it out moves nothing.
   */
  lemma RunDetachedStartStaysOnMaster(o: Oracle, svc: Service, fs: Tree, args: Args, current: string)
    requires HeadOutputNonEmpty(o, args.path)
    requires o.head(args.path).Some? && Captured(o, args.path) == "HEAD" && args.master != "HEAD"
    requires Run(o, svc, fs, args).outcome.Pass?
    ensures CheckedOutAfter(o, args.path, current, Run(o, svc, fs, args).trace) == args.master
  {
    RunRestoresCheckout(o, svc, fs, args, current);
  }

  /**
   A run that reaches the fan-out leaves nothing at or under the scratch root,
   nothing below git's worktree directory, and every other path as it was.
   */
  lemma RunPurgesWorktrees(o: Oracle, svc: Service, fs: Tree, args: Args)
    requires HeadOutputNonEmpty(o, args.path)
    requires ReachesFanOut(o, args)
    ensures var r := Run(o, svc, fs, args);
      && (forall q :: q in r.fs ==> !Under(q, WorktreesRoot(args.path)))
      && (forall q :: q in r.fs ==> !StrictlyUnder(q, GitWorktreesDir(args.path)))
      && (forall q :: !Under(q, WorktreesRoot(args.path)) && !StrictlyUnder(q, GitWorktreesDir(args.path)) ==>
            (q in r.fs <==> q in fs))
  {
  }
}

=== FILE: filesystem.dfy ===
/**
 The filesystem as a set of paths, and the path derivations the sync service
 and the cleanup share. Paths are joined with a plain "/" (no normalisation).
 A path exists when it, or anything below it, is in the set: a directory
 exists as soon as something lives in it.
 */
module FileSystem {

  type Path = string
  type Tree = set<Path>

  /** `q` is `d` itself or lies somewhere below it. */
  predicate Under(q: Path, d: Path) {
    q == d || StrictlyUnder(q, d)
  }

  predicate StrictlyUnder(q: Path, d: Path) {
    d + "/" <= q
  }

  /** os.Stat succeeds. */
  predicate Exists(fs: Tree, p: Path) {
    exists q :: q in fs && Under(q, p)
  }

  /** os.RemoveAll: `p` and everything below it disappear; nothing else changes. */
  function RemoveAll(fs: Tree, p: Path): (r: Tree)
    ensures r <= fs
    ensures !Exists(r, p)
    ensures forall q :: q in fs && !Under(q, p) ==> q in r
  {
    set q | q in fs && !Under(q, p)
  }

  /** Go's filepath.Join of two components, without normalisation. */
  function JoinPath(dir: Path, name: string): Path {
    dir + "/" + name
  }

  /** The scratch root holding one worktree per branch: `<repo>/.automerger`. */
  function WorktreesRoot(repo: Path): Path {
    JoinPath(repo, ".automerger")
  }

  /** The worktree of `branch`: `<repo>/.automerger/<branch>`. */
  function WorktreePath(repo: Path, branch: string): (p: Path)
    ensures p == repo + "/.automerger/" + branch
  {
    JoinPath(WorktreesRoot(repo), branch)
  }

  /** Where git keeps its per-worktree metadata: `<repo>/.git/worktrees`. */
  function GitWorktreesDir(repo: Path): Path {
    JoinPath(JoinPath(repo, ".git"), "worktrees")
  }

  /** A worktree path lies strictly below the scratch root and is not the repository itself. */
  lemma WorktreePathInRoot(repo: Path, branch: string)
    ensures StrictlyUnder(WorktreePath(repo, branch), WorktreesRoot(repo))
    ensures !Under(repo, WorktreePath(repo, branch))
  {
  }

  /** Distinct branches get distinct worktrees. */
  lemma WorktreePathInjective(repo: Path, b1: string, b2: string)
    requires WorktreePath(repo, b1) == WorktreePath(repo, b2)
    ensures b1 == b2
  {
    var prefix := WorktreesRoot(repo) + "/";
    assert WorktreePath(repo, b1) == prefix + b1;
    assert WorktreePath(repo, b2) == prefix + b2;
    assert b1 == (prefix + b1)[|prefix|..];
    assert b2 == (prefix + b2)[|prefix|..];
  }

  /** The scratch root and git's worktree metadata directory share no path. */
  lemma RegionsDisjoint(repo: Path, q: Path)
    requires Under(q, WorktreesRoot(repo))
    ensures !Under(q, GitWorktreesDir(repo))
  {
    var n := |repo| + 2;
    assert WorktreesRoot(repo) <= q;
    assert q[n] == WorktreesRoot(repo)[n] == 'a';
    assert GitWorktreesDir(repo)[n] == 'g';
  }

  /** git's worktree metadata directory is not inside the scratch root. */
  lemma GitWorktreesOutsideRoot(repo: Path)
    ensures !Under(GitWorktreesDir(repo), WorktreesRoot(repo))
  {
    if Under(GitWorktreesDir(repo), WorktreesRoot(repo)) {
      RegionsDisjoint(repo, GitWorktreesDir(repo));
    }
  }
}

=== FILE: git.dfy ===
/**
 The outside world as the sync tool sees it. Every git invocation and every
 os call whose result matters is a `Command`; an `Oracle` answers it. A run's
 `trace` is the sequence of commands issued, in order.
 */
module Git {
  import opened Wrappers

  datatype Command =
    | RevParseGitDir(dir: string)                         // git rev-parse --git-dir
    | FetchOrigin(dir: string)                            // git fetch origin
    | RevParseHead(dir: string)                           // git rev-parse --abbrev-ref HEAD
    | Checkout(dir: string, ref: string)                  // git checkout <ref>
    | ReadFile(path: string)                              // os.ReadFile
    | MkdirAll(path: string)                              // os.MkdirAll
    | WorktreeAdd(dir: string, path: string, branch: string) // git worktree add <path> <branch>
    | Pull(dir: string, branch: string)                   // git pull origin <branch>
    | Merge(dir: string, message: string, source: string) // git merge --no-ff -m <message> <source>
    | Push(dir: string, branch: string)                   // git push origin <branch>
    | CleanWorktrees(repo: string)                        // the in-process worktree cleanup

  /**
   The answers of the outside world: whether a command succeeds, what
   `rev-parse --abbrev-ref HEAD` prints in a directory, and what a file holds.
   A command gets the same answer every time it is issued during one run.
   */
  datatype Oracle = Oracle(
    succeeds: Command -> bool,
    head: string -> Option<string>,
    files: string -> Option<string>)

  /** The errors the tool reports, tagged by the step that failed. */
  datatype Failure =
    | NotGitRepo(path: string)
    | FetchFailed
    | CurrentBranchUnknown
    | SwitchToMasterFailed(master: string)
    | BranchFileUnreadable(file: string)
    | PullFailed(branch: string)
    | MergeFailed(master: string, branch: string)
    | PushFailed(branch: string)
    | OriginalBranchNotSaved
    | RestoreFailed(original: string)

  /** What one call did: its result and the commands it issued. */
  datatype Attempt = Attempt(outcome: Outcome<Failure>, trace: seq<Command>)

  /** Commands the per-branch pipeline issues. */
  predicate IsPipelineCommand(c: Command) {
    c.Pull? || c.Merge? || c.Push?
  }

  /** Commands worktree creation issues. */
  predicate IsCreateCommand(c: Command) {
    c.MkdirAll? || c.WorktreeAdd?
  }

  /**
   `c` moves the checkout of `repo`: a successful `git checkout` there of any
   ref but `HEAD`. Checking out `HEAD` (what `rev-parse --abbrev-ref HEAD`
   prints on a detached HEAD) succeeds without moving anything.
   */
  predicate Switches(o: Oracle, repo: string, c: Command) {
    c.Checkout? && c.dir == repo && o.succeeds(c) && c.ref != "HEAD"
  }

  /**
   The branch checked out in `repo` after the commands of `trace`, starting
   from `current`: every command that switches it replaces it by its ref.
   */
  function CheckedOutAfter(o: Oracle, repo: string, current: string, trace: seq<Command>): string
    decreases |trace|
  {
    if trace == [] then current
    else
      var c := trace[0];
      CheckedOutAfter(o, repo, if Switches(o, repo, c) then c.ref else current, trace[1..])
  }

  /** The checked-out branch after `a + b` is the one after `b`, starting from where `a` left it. */
  lemma {:induction false} CheckedOutAfterAppend(o: Oracle, repo: string, current: string, a: seq<Command>, b: seq<Command>)
    ensures CheckedOutAfter(o, repo, current, a + b)
         == CheckedOutAfter(o, repo, CheckedOutAfter(o, repo, current, a), b)
    decreases |a|
  {
    if a != [] {
      assert (a + b)[1..] == a[1..] + b;
      var c := a[0];
      CheckedOutAfterAppend(o, repo, if Switches(o, repo, c) then c.ref else current, a[1..], b);
    } else {
      assert a + b == b;
    }
  }

  /** Commands that are not checkouts in `repo` leave the checked-out branch alone. */
  lemma {:induction false} CheckedOutUnchanged(o: Oracle, repo: string, current: string, trace: seq<Command>)
    requires forall c <- trace :: !(c.Checkout? && c.dir == repo)
    ensures CheckedOutAfter(o, repo, current, trace) == current
    decreases |trace|
  {
    if trace != [] {
      assert forall c <- trace[1..] :: c in trace;
      CheckedOutUnchanged(o, repo, current, trace[1..]);
    }
  }

  /** A single command: a switching checkout moves to its ref, anything else leaves the checkout alone. */
  lemma CheckedOutAfterOne(o: Oracle, repo: string, current: string, c: Command)
    ensures CheckedOutAfter(o, repo, current, [c]) == if Switches(o, repo, c) then c.ref else current
  {
    assert [c][1..] == [];
  }
}

=== FILE: service.dfy ===
/**
 The sync service: the branch list and the original branch it remembers, the
 branch-file parser, the per-branch pull/merge/push pipeline, the capture and
 restore of the shared checkout, and worktree creation.
 */
module Service {
  import opened Wrappers
  import opened Text
  import opened FileSystem
  import opened Git

  /** The service's state: the branches to sync and the branch to return to. */
  datatype Service = Service(branches: seq<string>, original: string)

  /** What a service call did: its result, the service afterwards, and the commands issued. */
  datatype Step = Step(outcome: Outcome<Failure>, svc: Service, trace: seq<Command>)

  /** NewSyncService: no branches, no original branch. */
  function NewSyncService(): Service {
    Service([], "")
  }

  /** CheckGitRepo: `git rev-parse --git-dir` run in `path` must succeed. */
  function CheckGitRepo(o: Oracle, path: string): (r: Attempt)
    ensures r.trace == [RevParseGitDir(path)]
    ensures r.outcome.Pass? <==> o.succeeds(RevParseGitDir(path))
    ensures r.outcome.Fail? ==> r.outcome.error == NotGitRepo(path)
  {
    var c := RevParseGitDir(path);
    Attempt(if o.succeeds(c) then Pass else Fail(NotGitRepo(path)), [c])
  }

  // ---------------------------------------------------------------------------
  // Branch file

  /** An entry of the branch list: non-empty, trimmed, not a comment. */
  predicate IsBranchEntry(x: string) {
    x != [] && Trimmed(x) && !("#" <= x)
  }

  /** What one line of the branch file contributes: its trimmed form, unless blank or a comment. */
  function Entry(line: string): (e: Option<string>)
    ensures e.Some? ==> e.value == TrimSpace(line) && IsBranchEntry(e.value)
    ensures e.None? ==> !IsBranchEntry(TrimSpace(line))
  {
    var t := TrimSpace(line);
    if t == "" || "#" <= t then None else Some(t)
  }

  /** The entry of one line as a sequence of zero or one elements. */
  function EntryOf(line: string): seq<string> {
    match Entry(line)
    case None => []
    case Some(t) => [t]
  }

  /** The entries of `lines`, in order. */
  function KeptLines(lines: seq<string>): (kept: seq<string>)
    ensures |kept| <= |lines|
  {
    if lines == [] then [] else EntryOf(lines[0]) + KeptLines(lines[1..])
  }

  /** Every kept entry is non-empty, trimmed and not a comment. */
  lemma {:induction false} KeptLinesAreEntries(lines: seq<string>)
    ensures forall k :: 0 <= k < |KeptLines(lines)| ==> IsBranchEntry(KeptLines(lines)[k])
  {
    if lines != [] {
      KeptLinesAreEntries(lines[1..]);
      var head := EntryOf(lines[0]);
      assert forall k :: 0 <= k < |head| ==> IsBranchEntry(head[k]);
    }
  }

  /** Keeping lines distributes over concatenation: file order is preserved. */
  lemma {:induction false} KeptLinesAppend(a: seq<string>, b: seq<string>)
    ensures KeptLines(a + b) == KeptLines(a) + KeptLines(b)
  {
    if a == [] {
      assert a + b == b;
    } else {
      assert (a + b)[0] == a[0];
      assert (a + b)[1..] == a[1..] + b;
      KeptLinesAppend(a[1..], b);
      calc {
        KeptLines(a + b);
        EntryOf(a[0]) + KeptLines(a[1..] + b);
        EntryOf(a[0]) + (KeptLines(a[1..]) + KeptLines(b));
        (EntryOf(a[0]) + KeptLines(a[1..])) + KeptLines(b);
      }
    }
  }

  /** Extending the lines read so far by one line appends that line's entry. */
  lemma KeptLinesSnoc(lines: seq<string>, k: int)
    requires 0 <= k < |lines|
    ensures KeptLines(lines[..k + 1]) == KeptLines(lines[..k]) + EntryOf(lines[k])
  {
    assert lines[..k + 1] == lines[..k] + [lines[k]];
    KeptLinesAppend(lines[..k], [lines[k]]);
    assert [lines[k]][1..] == [];
  }

  /** One more line read: its trimmed form is appended unless it is blank or a comment. */
  lemma KeptLinesStep(lines: seq<string>, k: int)
    requires 0 <= k < |lines|
    ensures var line := TrimSpace(lines[k]);
      KeptLines(lines[..k + 1])
        == KeptLines(lines[..k]) + (if line == "" || "#" <= line then [] else [line])
  {
    KeptLinesSnoc(lines, k);
  }

  /** A string is kept exactly when it is the entry of some line. */
  lemma {:induction false} KeptLinesMembers(lines: seq<string>, x: string)
    ensures x in KeptLines(lines) <==> exists i :: 0 <= i < |lines| && Entry(lines[i]) == Some(x)
  {
    if lines != [] {
      KeptLinesMembers(lines[1..], x);
      if x in KeptLines(lines[1..]) {
        var i :| 0 <= i < |lines| - 1 && Entry(lines[1..][i]) == Some(x);
        assert Entry(lines[i + 1]) == Some(x);
      }
      if exists i :: 0 <= i < |lines| && Entry(lines[i]) == Some(x) {
        var i :| 0 <= i < |lines| && Entry(lines[i]) == Some(x);
        if i > 0 {
          assert Entry(lines[1..][i - 1]) == Some(x);
        }
      }
    }
  }

  /** LoadBranches: read the file and append its entries to the branch list. */
  function LoadBranches(svc: Service, o: Oracle, file: string): (r: Step)
    ensures r.trace == [ReadFile(file)]
    ensures r.svc.original == svc.original
    ensures o.files(file).None? ==> r.outcome == Fail(BranchFileUnreadable(file)) && r.svc == svc
    ensures o.files(file).Some? ==> r.outcome == Pass
    ensures o.files(file).Some? ==>
      |svc.branches| <= |r.svc.branches| && r.svc.branches[..|svc.branches|] == svc.branches
  {
    match o.files(file)
    case None => Step(Fail(BranchFileUnreadable(file)), svc, [ReadFile(file)])
    case Some(content) =>
      var kept := KeptLines(Split(content, '\n'));
      assert (svc.branches + kept)[..|svc.branches|] == svc.branches;
      Step(Pass, svc.(branches := svc.branches + kept), [ReadFile(file)])
  }

  /**
   After a successful load, the branches already listed come first, followed by
   the entries of the file's lines in file order, each non-empty, trimmed and not
   a comment.
   */
  lemma LoadBranchesEntries(svc: Service, o: Oracle, file: string)
    requires o.files(file).Some?
    ensures var r := LoadBranches(svc, o, file);
      && r.svc.branches[|svc.branches|..] == KeptLines(Split(o.files(file).value, '\n'))
      && forall k :: |svc.branches| <= k < |r.svc.branches| ==> IsBranchEntry(r.svc.branches[k])
  {
    var r := LoadBranches(svc, o, file);
    var added := r.svc.branches[|svc.branches|..];
    KeptLinesAreEntries(Split(o.files(file).value, '\n'));
    forall k | |svc.branches| <= k < |r.svc.branches|
      ensures IsBranchEntry(r.svc.branches[k])
    {
      assert r.svc.branches[k] == added[k - |svc.branches|];
    }
  }

  /** The parsing loop of LoadBranches: split the text into lines and append each entry. */
  method AppendBranchLines(branches: seq<string>, content: string) returns (result: seq<string>)
    ensures result == branches + KeptLines(Split(content, '\n'))
  {
    result := AppendEntries(branches, Split(content, '\n'));
  }

  /** The loop over the lines, appending the entry of each in turn. */
  method AppendEntries(branches: seq<string>, lines: seq<string>) returns (result: seq<string>)
    ensures result == branches + KeptLines(lines)
  {
    result := branches;
    for k := 0 to |lines|
      invariant result == branches + KeptLines(lines[..k])
    {
      var line := TrimSpace(lines[k]);
      KeptLinesStep(lines, k);
      if line == "" || "#" <= line {
        continue;
      }
      assert KeptLines(lines[..k + 1]) == KeptLines(lines[..k]) + [line];
      result := result + [line];
    }
    assert lines[..|lines|] == lines;
  }

  // ---------------------------------------------------------------------------
  // Per-branch pipeline

  /** The ref merged into every branch. */
  function MergeSource(master: string): string {
    "origin/" + master
  }

  /** The merge commit's message. */
  function MergeMessage(master: string, branch: string): string {
    "Merge origin/" + master + " into " + branch
  }

  /** The three commands of a branch's pipeline, all run inside its worktree. */
  function Plan(repo: string, master: string, branch: string): (plan: seq<Command>)
    ensures |plan| == 3
    ensures forall k :: 0 <= k < 3 ==> IsPipelineCommand(plan[k]) && plan[k].dir == WorktreePath(repo, branch)
    ensures plan[0].Pull? && plan[0].branch == branch
    ensures plan[1].Merge? && plan[1].source == "origin/" + master
    ensures plan[1].message == "Merge origin/" + master + " into " + branch
    ensures plan[2].Push? && plan[2].branch == branch
  {
    var dir := WorktreePath(repo, branch);
    [Pull(dir, branch), Merge(dir, MergeMessage(master, branch), MergeSource(master)), Push(dir, branch)]
  }

  /**
   A pipeline command succeeds: its working directory exists (exec.Cmd.Run
   fails before starting git otherwise) and git succeeds.
   */
  predicate RunsIn(o: Oracle, fs: Tree, c: Command)
    requires IsPipelineCommand(c)
  {
    Exists(fs, c.dir) && o.succeeds(c)
  }

  /**
   SyncBranch: pull, merge, push in the branch's worktree, stopping at the
   first failure. `fs` is the filesystem the commands run against.
   */
  function SyncBranch(o: Oracle, fs: Tree, branch: string, master: string, repo: string, dryRun: bool): (r: Attempt)
    ensures dryRun ==> r == Attempt(Pass, [])
    ensures !dryRun ==> 1 <= |r.trace| <= 3 && r.trace == Plan(repo, master, branch)[..|r.trace|]
    ensures !dryRun ==> forall k :: 0 <= k < |r.trace| - 1 ==> RunsIn(o, fs, r.trace[k])
    ensures !dryRun && r.outcome.Fail? ==> !RunsIn(o, fs, r.trace[|r.trace| - 1])
    ensures !dryRun ==>
      var plan := Plan(repo, master, branch);
      && (r.outcome == Fail(PullFailed(branch)) <==> !RunsIn(o, fs, plan[0]))
      && (r.outcome == Fail(MergeFailed(master, branch)) <==> RunsIn(o, fs, plan[0]) && !RunsIn(o, fs, plan[1]))
      && (r.outcome == Fail(PushFailed(branch)) <==>
            RunsIn(o, fs, plan[0]) && RunsIn(o, fs, plan[1]) && !RunsIn(o, fs, plan[2]))
      && (r.outcome == Pass <==> RunsIn(o, fs, plan[0]) && RunsIn(o, fs, plan[1]) && RunsIn(o, fs, plan[2]))
    ensures forall k :: 0 <= k < |r.trace| ==>
      IsPipelineCommand(r.trace[k]) && r.trace[k].dir == WorktreePath(repo, branch)
  {
    var plan := Plan(repo, master, branch);
    if dryRun then Attempt(Pass, [])
    else if !RunsIn(o, fs, plan[0]) then Attempt(Fail(PullFailed(branch)), plan[..1])
    else if !RunsIn(o, fs, plan[1]) then Attempt(Fail(MergeFailed(master, branch)), plan[..2])
    else if !RunsIn(o, fs, plan[2]) then Attempt(Fail(PushFailed(branch)), plan)
    else Attempt(Pass, plan)
  }

  /** Without its worktree directory a branch's pipeline stops at the pull, whatever git would answer. */
  lemma SyncBranchNeedsWorktree(o: Oracle, fs: Tree, branch: string, master: string, repo: string)
    requires !Exists(fs, WorktreePath(repo, branch))
    ensures SyncBranch(o, fs, branch, master, repo, false)
      == Attempt(Fail(PullFailed(branch)), [Pull(WorktreePath(repo, branch), branch)])
  {
    assert Plan(repo, master, branch)[..1] == [Pull(WorktreePath(repo, branch), branch)];
  }

  /** Every pipeline command runs in the very directory that worktree creation adds for the branch. */
  lemma PipelineRunsInCreatedWorktree(o: Oracle, fs: Tree, branch: string, master: string, repo: string, dryRun: bool)
    ensures forall c <- SyncBranch(o, fs, branch, master, repo, dryRun).trace :: c.dir == AddCommand(repo, branch).path
  {
  }

  // ---------------------------------------------------------------------------
  // Shared checkout

  /** The panic-free case of CheckoutMaster: rev-parse, when it answers, prints at least one character. */
  predicate HeadOutputNonEmpty(o: Oracle, repo: string) {
    o.head(repo).Some? ==> o.head(repo).value != []
  }

  /** CheckoutMaster: remember the current branch, then check out `master`. */
  function CheckoutMaster(svc: Service, o: Oracle, master: string, repo: string): (r: Step)
    requires HeadOutputNonEmpty(o, repo)
    ensures r.svc.branches == svc.branches
    ensures 1 <= |r.trace| <= 2 && r.trace == [RevParseHead(repo), Checkout(repo, master)][..|r.trace|]
    ensures o.head(repo).None? ==> r == Step(Fail(CurrentBranchUnknown), svc, [RevParseHead(repo)])
    ensures o.head(repo).Some? ==>
      var out := o.head(repo).value;
      |r.trace| == 2 && r.svc.original + [out[|out| - 1]] == out
    ensures r.outcome.Pass? <==> o.head(repo).Some? && o.succeeds(Checkout(repo, master))
    ensures o.head(repo).Some? && r.outcome.Fail? ==> r.outcome.error == SwitchToMasterFailed(master)
  {
    match o.head(repo)
    case None => Step(Fail(CurrentBranchUnknown), svc, [RevParseHead(repo)])
    case Some(out) =>
      var saved := svc.(original := out[..|out| - 1]);
      var c := Checkout(repo, master);
      Step(if o.succeeds(c) then Pass else Fail(SwitchToMasterFailed(master)), saved, [RevParseHead(repo), c])
  }

  /** RestoreOriginalBranch: check the remembered branch out again, if one was remembered. */
  function RestoreOriginalBranch(svc: Service, o: Oracle, repo: string): (r: Attempt)
    ensures svc.original == [] ==> r == Attempt(Fail(OriginalBranchNotSaved), [])
    ensures svc.original != [] ==> r.trace == [Checkout(repo, svc.original)]
    ensures r.outcome.Pass? <==> svc.original != [] && o.succeeds(Checkout(repo, svc.original))
    ensures svc.original != [] && r.outcome.Fail? ==> r.outcome.error == RestoreFailed(svc.original)
  {
    if svc.original == [] then Attempt(Fail(OriginalBranchNotSaved), [])
    else
      var c := Checkout(repo, svc.original);
      Attempt(if o.succeeds(c) then Pass else Fail(RestoreFailed(svc.original)), [c])
  }

  // ---------------------------------------------------------------------------
  // Worktree creation

  /** The worktrees and the commands issued while creating them. */
  datatype Materialised = Materialised(fs: Tree, trace: seq<Command>)

  /** The `git worktree add` for one branch, run in the repository. */
  function AddCommand(repo: string, branch: string): Command {
    WorktreeAdd(repo, WorktreePath(repo, branch), branch)
  }

  /**
   `git worktree add` for `branch` succeeds: git refuses a branch it already
   has a worktree registered for (`registered`), and otherwise answers as the
   oracle says.
   */
  predicate AddSucceeds(o: Oracle, repo: string, branch: string, registered: set<string>) {
    branch !in registered && o.succeeds(AddCommand(repo, branch))
  }

  /**
   Entry `k` of the creation loop gets its worktree added: its branch was not
   registered beforehand, no earlier entry names it (the earlier add would have
   registered it, or failed just the same), and git accepts the add.
   */
  predicate AddedAt(o: Oracle, repo: string, registered: set<string>, branches: seq<string>, k: int)
    requires 0 <= k < |branches|
  {
    && branches[k] !in registered
    && branches[k] !in branches[..k]
    && o.succeeds(AddCommand(repo, branches[k]))
  }

  /** The branches registered once `branch`'s add has been tried. */
  function RegisterAdd(o: Oracle, repo: string, branch: string, registered: set<string>): set<string> {
    if AddSucceeds(o, repo, branch, registered) then registered + {branch} else registered
  }

  /**
   One branch: remove whatever is at or below its worktree path, then try
   `git worktree add`. Afterwards the only path at or below the worktree path is
   the worktree itself, and only when the add succeeded; elsewhere nothing changes.
   */
  function AddWorktree(o: Oracle, repo: string, branch: string, fs: Tree, registered: set<string>): (r: Tree)
    ensures forall q :: !Under(q, WorktreePath(repo, branch)) ==> (q in r <==> q in fs)
    ensures forall q :: Under(q, WorktreePath(repo, branch)) ==>
      (q in r <==> q == WorktreePath(repo, branch) && AddSucceeds(o, repo, branch, registered))
  {
    var p := WorktreePath(repo, branch);
    var cleared := if Exists(fs, p) then RemoveAll(fs, p) else fs;
    if AddSucceeds(o, repo, branch, registered) then cleared + {p} else cleared
  }

  /** Whether an entry of the remaining loop is added is whether the same entry of the whole loop is. */
  lemma AddedAtShift(o: Oracle, repo: string, registered: set<string>, branches: seq<string>, k: int)
    requires 0 <= k < |branches| - 1
    ensures AddedAt(o, repo, RegisterAdd(o, repo, branches[0], registered), branches[1..], k)
        <==> AddedAt(o, repo, registered, branches, k + 1)
  {
    assert branches[..k + 1] == [branches[0]] + branches[1..][..k];
  }

  /** The creation loop: every branch in order, carrying on past failures. */
  function AddWorktrees(o: Oracle, repo: string, branches: seq<string>, fs: Tree, registered: set<string>): (r: Materialised)
    ensures |r.trace| == |branches|
    ensures forall k :: 0 <= k < |branches| ==> r.trace[k] == AddCommand(repo, branches[k])
    ensures forall q :: !Under(q, WorktreesRoot(repo)) ==> (q in r.fs <==> q in fs)
    ensures forall q :: q in r.fs && q !in fs ==>
      exists k :: 0 <= k < |branches| && q == WorktreePath(repo, branches[k]) && AddedAt(o, repo, registered, branches, k)
    decreases |branches|
  {
    if branches == [] then Materialised(fs, [])
    else
      var next := AddWorktree(o, repo, branches[0], fs, registered);
      var reg := RegisterAdd(o, repo, branches[0], registered);
      WorktreePathInRoot(repo, branches[0]);
      var m := AddWorktrees(o, repo, branches[1..], next, reg);
      assert forall k :: 0 <= k < |branches| - 1 && AddedAt(o, repo, reg, branches[1..], k) ==>
        AddedAt(o, repo, registered, branches, k + 1) by {
        forall k | 0 <= k < |branches| - 1 {
          AddedAtShift(o, repo, registered, branches, k);
        }
      }
      Materialised(m.fs, [AddCommand(repo, branches[0])] + m.trace)
  }

  /** CreateWorkTrees: create the scratch root, then one worktree per branch; never fails. */
  function CreateWorkTrees(o: Oracle, branches: seq<string>, repo: string, fs: Tree): (r: Materialised)
    ensures |r.trace| == |branches| + 1 && r.trace[0] == MkdirAll(WorktreesRoot(repo))
    ensures forall k :: 0 <= k < |branches| ==> r.trace[k + 1] == AddCommand(repo, branches[k])
    ensures forall c <- r.trace :: IsCreateCommand(c)
    ensures forall q :: !Under(q, WorktreesRoot(repo)) ==> (q in r.fs <==> q in fs)
    ensures forall q :: q in r.fs && q !in fs && q != WorktreesRoot(repo) ==>
      exists k :: 0 <= k < |branches| && q == WorktreePath(repo, branches[k]) && AddedAt(o, repo, {}, branches, k)
  {
    var root := WorktreesRoot(repo);
    var made := if o.succeeds(MkdirAll(root)) then fs + {root} else fs;
    var m := AddWorktrees(o, repo, branches, made, {});
    Materialised(m.fs, [MkdirAll(root)] + m.trace)
  }

  /**
   Whatever lies at or below an entry's worktree path after the loop is the
   worktree of that entry or of a later one, added there: the entry's
   `os.RemoveAll` cleared everything else.
   */
  lemma {:induction false} AddWorktreesClears(o: Oracle, repo: string, branches: seq<string>, fs: Tree,
                                              registered: set<string>, k: int, q: Path)
    requires 0 <= k < |branches| && Under(q, WorktreePath(repo, branches[k]))
    requires q in AddWorktrees(o, repo, branches, fs, registered).fs
    ensures exists j :: k <= j < |branches| && q == WorktreePath(repo, branches[j]) && AddedAt(o, repo, registered, branches, j)
    decreases |branches|
  {
    var next := AddWorktree(o, repo, branches[0], fs, registered);
    var reg := RegisterAdd(o, repo, branches[0], registered);
    var rest := AddWorktrees(o, repo, branches[1..], next, reg);
    assert AddWorktrees(o, repo, branches, fs, registered).fs == rest.fs;
    if k > 0 {
      assert branches[1..][k - 1] == branches[k];
      AddWorktreesClears(o, repo, branches[1..], next, reg, k - 1, q);
      var j :| k - 1 <= j < |branches| - 1 && q == WorktreePath(repo, branches[1..][j]) && AddedAt(o, repo, reg, branches[1..], j);
      AddedAtShift(o, repo, registered, branches, j);
      assert q == WorktreePath(repo, branches[j + 1]);
    } else if q in next {
      assert q == WorktreePath(repo, branches[0]) && AddSucceeds(o, repo, branches[0], registered);
      assert AddedAt(o, repo, registered, branches, 0);
    } else {
      var j :| 0 <= j < |branches| - 1 && q == WorktreePath(repo, branches[1..][j]) && AddedAt(o, repo, reg, branches[1..], j);
      AddedAtShift(o, repo, registered, branches, j);
      assert q == WorktreePath(repo, branches[j + 1]);
    }
  }

  /** A branch listed twice ends without a worktree: the second add is refused after the first one's directory was removed. */
  lemma AddWorktreesDuplicateLost(o: Oracle, repo: string, branches: seq<string>, fs: Tree, registered: set<string>, i: int, j: int)
    requires 0 <= i < j < |branches| && branches[i] == branches[j]
    ensures WorktreePath(repo, branches[i]) !in AddWorktrees(o, repo, branches, fs, registered).fs
  {
    var p := WorktreePath(repo, branches[j]);
    if p in AddWorktrees(o, repo, branches, fs, registered).fs {
      AddWorktreesClears(o, repo, branches, fs, registered, j, p);
      var m :| j <= m < |branches| && p == WorktreePath(repo, branches[m]) && AddedAt(o, repo, registered, branches, m);
      WorktreePathInjective(repo, branches[j], branches[m]);
      assert false;
    }
  }

  /** A path no entry's worktree path contains survives the rest of the loop. */
  lemma {:induction false} AddWorktreesPreserves(o: Oracle, repo: string, branches: seq<string>, fs: Tree,
                                                 registered: set<string>, p: Path)
    requires p in fs
    requires forall j :: 0 <= j < |branches| ==> !Under(p, WorktreePath(repo, branches[j]))
    ensures p in AddWorktrees(o, repo, branches, fs, registered).fs
    decreases |branches|
  {
    if branches != [] {
      var next := AddWorktree(o, repo, branches[0], fs, registered);
      assert p in next;
      assert forall j :: 0 <= j < |branches| - 1 ==> branches[1..][j] == branches[j + 1];
      AddWorktreesPreserves(o, repo, branches[1..], next, RegisterAdd(o, repo, branches[0], registered), p);
    }
  }

  /**
   An entry whose worktree is added has it after the loop, unless a later
   entry's worktree path contains it (a later entry of a branch that is a
   path prefix of it).
   */
  lemma {:induction false} AddWorktreesCreates(o: Oracle, repo: string, branches: seq<string>, fs: Tree,
                                               registered: set<string>, i: int)
    requires 0 <= i < |branches| && AddedAt(o, repo, registered, branches, i)
    requires forall j :: i < j < |branches| ==> !Under(WorktreePath(repo, branches[i]), WorktreePath(repo, branches[j]))
    ensures WorktreePath(repo, branches[i]) in AddWorktrees(o, repo, branches, fs, registered).fs
    decreases |branches|
  {
    var next := AddWorktree(o, repo, branches[0], fs, registered);
    var reg := RegisterAdd(o, repo, branches[0], registered);
    assert forall j :: 0 <= j < |branches| - 1 ==> branches[1..][j] == branches[j + 1];
    if i > 0 {
      AddedAtShift(o, repo, registered, branches, i - 1);
      AddWorktreesCreates(o, repo, branches[1..], next, reg, i - 1);
    } else {
      AddWorktreesPreserves(o, repo, branches[1..], next, reg, WorktreePath(repo, branches[0]));
    }
  }

  /**
   After CreateWorkTrees, whatever lies at or below an entry's worktree path is
   the worktree of that entry or of a later one, and that worktree was added.
   */
  lemma CreateWorkTreesClears(o: Oracle, branches: seq<string>, repo: string, fs: Tree, k: int, q: Path)
    requires 0 <= k < |branches| && Under(q, WorktreePath(repo, branches[k]))
    requires q in CreateWorkTrees(o, branches, repo, fs).fs
    ensures exists j :: k <= j < |branches| && q == WorktreePath(repo, branches[j]) && AddedAt(o, repo, {}, branches, j)
  {
    var root := WorktreesRoot(repo);
    var made := if o.succeeds(MkdirAll(root)) then fs + {root} else fs;
    AddWorktreesClears(o, repo, branches, made, {}, k, q);
  }

  /**
   A branch listed twice has no worktree directory after CreateWorkTrees, as
   long as no entry's worktree lies inside its worktree path.
   */
  lemma CreateWorkTreesDropsDuplicates(o: Oracle, branches: seq<string>, repo: string, fs: Tree, i: int, j: int)
    requires 0 <= i < j < |branches| && branches[i] == branches[j]
    requires forall m :: 0 <= m < |branches| ==> !StrictlyUnder(WorktreePath(repo, branches[m]), WorktreePath(repo, branches[i]))
    ensures !Exists(CreateWorkTrees(o, branches, repo, fs).fs, WorktreePath(repo, branches[i]))
  {
    var p := WorktreePath(repo, branches[i]);
    var r := CreateWorkTrees(o, branches, repo, fs);
    if Exists(r.fs, p) {
      var q :| q in r.fs && Under(q, p);
      CreateWorkTreesClears(o, branches, repo, fs, j, q);
      var m :| j <= m < |branches| && q == WorktreePath(repo, branches[m]) && AddedAt(o, repo, {}, branches, m);
      WorktreePathInjective(repo, branches[i], branches[m]);
      assert false;
    }
  }

  /**
   An entry whose `worktree add` git refuses has no worktree directory after
   CreateWorkTrees, as long as no entry's worktree lies inside its worktree path.
   */
  lemma CreateWorkTreesFailedAdd(o: Oracle, branches: seq<string>, repo: string, fs: Tree, k: int)
    requires 0 <= k < |branches| && !o.succeeds(AddCommand(repo, branches[k]))
    requires forall m :: 0 <= m < |branches| ==> !StrictlyUnder(WorktreePath(repo, branches[m]), WorktreePath(repo, branches[k]))
    ensures !Exists(CreateWorkTrees(o, branches, repo, fs).fs, WorktreePath(repo, branches[k]))
  {
    var p := WorktreePath(repo, branches[k]);
    var r := CreateWorkTrees(o, branches, repo, fs);
    if Exists(r.fs, p) {
      var q :| q in r.fs && Under(q, p);
      CreateWorkTreesClears(o, branches, repo, fs, k, q);
      var m :| k <= m < |branches| && q == WorktreePath(repo, branches[m]) && AddedAt(o, repo, {}, branches, m);
      WorktreePathInjective(repo, branches[k], branches[m]);
      assert false;
    }
  }

  /**
   An entry whose worktree is added has it after CreateWorkTrees, unless a
   later entry's worktree path contains it.
   */
  lemma CreateWorkTreesCreates(o: Oracle, branches: seq<string>, repo: string, fs: Tree, i: int)
    requires 0 <= i < |branches| && AddedAt(o, repo, {}, branches, i)
    requires forall j :: i < j < |branches| ==> !Under(WorktreePath(repo, branches[i]), WorktreePath(repo, branches[j]))
    ensures Exists(CreateWorkTrees(o, branches, repo, fs).fs, WorktreePath(repo, branches[i]))
  {
    var root := WorktreesRoot(repo);
    var made := if o.succeeds(MkdirAll(root)) then fs + {root} else fs;
    AddWorktreesCreates(o, repo, branches, made, {}, i);
  }
}

=== FILE: text.dfy ===
/**
 The two string primitives the branch-file loader relies on: splitting on a
 separator (Go's strings.Split with a one-character separator) and trimming
 white space at both ends (strings.TrimSpace, restricted to ASCII).
 */
module Text {

  /** ASCII white space as strings.TrimSpace recognises it. */
  predicate IsSpace(c: char) {
    c == ' ' || c == '\t' || c == '\n' || c == '\r' || c == '\U{000B}' || c == '\U{000C}'
  }

  predicate AllSpace(s: string) {
    forall k :: 0 <= k < |s| ==> IsSpace(s[k])
  }

  /** No white space at either end. */
  predicate Trimmed(s: string) {
    s == [] || (!IsSpace(s[0]) && !IsSpace(s[|s| - 1]))
  }

  /** `r` occurs in `s` at offset `i`, with nothing but white space before and after it. */
  predicate InnerAt(r: string, s: string, i: int) {
    0 <= i && i + |r| <= |s| && s[i..i + |r|] == r && AllSpace(s[..i]) && AllSpace(s[i + |r|..])
  }

  ghost predicate InnerOf(r: string, s: string) {
    exists i :: InnerAt(r, s, i)
  }

  /** Drops leading white space. */
  function TrimLeft(s: string): string {
    if |s| > 0 && IsSpace(s[0]) then TrimLeft(s[1..]) else s
  }

  /** TrimLeft removes a white-space prefix and stops at the first other character. */
  lemma {:induction false} TrimLeftSpec(s: string)
    ensures var r := TrimLeft(s);
      && |r| <= |s| && r == s[|s| - |r|..]
      && AllSpace(s[..|s| - |r|])
      && (r == [] || !IsSpace(r[0]))
  {
    if |s| > 0 && IsSpace(s[0]) {
      TrimLeftSpec(s[1..]);
      var r := TrimLeft(s[1..]);
      assert s[..|s| - |r|] == [s[0]] + s[1..][..|s| - 1 - |r|];
    }
  }

  /** Drops trailing white space. */
  function TrimRight(s: string): string {
    if |s| > 0 && IsSpace(s[|s| - 1]) then TrimRight(s[..|s| - 1]) else s
  }

  /** TrimRight removes a white-space suffix and stops at the last other character. */
  lemma {:induction false} TrimRightSpec(s: string)
    ensures var r := TrimRight(s);
      && |r| <= |s| && r == s[..|r|]
      && AllSpace(s[|r|..])
      && (r == [] || !IsSpace(r[|r| - 1]))
  {
    if |s| > 0 && IsSpace(s[|s| - 1]) {
      TrimRightSpec(s[..|s| - 1]);
      var r := TrimRight(s[..|s| - 1]);
      assert s[|r|..] == s[..|s| - 1][|r|..] + [s[|s| - 1]];
    }
  }

  /** strings.TrimSpace: the part of `s` between its leading and trailing white space. */
  function TrimSpace(s: string): (r: string)
    ensures Trimmed(r)
    ensures InnerOf(r, s)
  {
    var l := TrimLeft(s);
    var r := TrimRight(l);
    TrimLeftSpec(s);
    TrimRightSpec(l);
    assert r != [] ==> r[0] == l[0];
    assert InnerAt(r, s, |s| - |l|) by {
      assert s[|s| - |l|..][..|r|] == r;
      assert s[|s| - |l| + |r|..] == l[|r|..];
    }
    r
  }

  /** At most one trimmed string sits inside `s` between white space. */
  lemma TrimmedInnerUnique(a: string, b: string, s: string, i: int, j: int)
    requires Trimmed(a) && InnerAt(a, s, i)
    requires Trimmed(b) && InnerAt(b, s, j)
    ensures a == b
  {
    if a == [] || b == [] {
      if a != [] {
        assert s[i] == a[0];
        AllSpaceAround(b, s, j, i);
      } else if b != [] {
        assert s[j] == b[0];
        AllSpaceAround(a, s, i, j);
      }
    } else {
      SpaceBefore(a, s, i);
      SpaceBefore(b, s, j);
      assert s[i] == a[0] && s[j] == b[0];
      assert i == j;
      assert s[i + |a| - 1] == a[|a| - 1] && s[j + |b| - 1] == b[|b| - 1];
      assert |a| == |b|;
    }
  }

  /** Helper: the white space around an inner occurrence, stated per character. */
  lemma SpaceBefore(a: string, s: string, i: int)
    requires InnerAt(a, s, i)
    ensures forall k :: 0 <= k < i ==> IsSpace(s[k])
    ensures forall k :: i + |a| <= k < |s| ==> IsSpace(s[k])
  {
    forall k | 0 <= k < i ensures IsSpace(s[k]) {
      assert s[..i][k] == s[k];
    }
    forall k | i + |a| <= k < |s| ensures IsSpace(s[k]) {
      assert s[i + |a|..][k - i - |a|] == s[k];
    }
  }

  /** Helper: when the empty string sits at offset `i`, every character of `s` is white space. */
  lemma AllSpaceAround(e: string, s: string, i: int, k: int)
    requires e == [] && InnerAt(e, s, i)
    requires 0 <= k < |s|
    ensures IsSpace(s[k])
  {
    if k < i {
      assert s[..i][k] == s[k];
    } else {
      assert s[i..][k - i] == s[k];
    }
  }

  /** TrimSpace is the unique trimmed inner part of its input. */
  lemma TrimSpaceCharacterised(s: string, t: string)
    requires Trimmed(t) && InnerOf(t, s)
    ensures TrimSpace(s) == t
  {
    var r := TrimSpace(s);
    var i :| InnerAt(r, s, i);
    var j :| InnerAt(t, s, j);
    TrimmedInnerUnique(r, t, s, i, j);
  }

  /** Trimming twice is trimming once. */
  lemma TrimSpaceIdempotent(s: string)
    ensures TrimSpace(TrimSpace(s)) == TrimSpace(s)
  {
    var t := TrimSpace(s);
    assert InnerAt(t, t, 0) by {
      assert t[..0] == [] && t[|t|..] == [];
    }
    TrimSpaceCharacterised(t, t);
  }

  /** strings.Split(s, string(sep)): the pieces between separators, in order. */
  function Split(s: string, sep: char): (parts: seq<string>)
    ensures |parts| >= 1
    ensures forall k :: 0 <= k < |parts| ==> sep !in parts[k]
  {
    if s == [] then
      [[]]
    else
      var rest := Split(s[1..], sep);
      if s[0] == sep then [[]] + rest
      else [[s[0]] + rest[0]] + rest[1..]
  }

  /** A split has one more piece than the text has separators. */
  lemma {:induction false} SplitCount(s: string, sep: char)
    ensures |Split(s, sep)| == multiset(s)[sep] + 1
  {
    if s != [] {
      SplitCount(s[1..], sep);
      assert s == [s[0]] + s[1..];
      assert multiset(s) == multiset{s[0]} + multiset(s[1..]);
    }
  }

  /** strings.Join(parts, string(sep)), the inverse of Split. */
  function Join(parts: seq<string>, sep: char): string
    requires |parts| >= 1
  {
    if |parts| == 1 then parts[0] else parts[0] + [sep] + Join(parts[1..], sep)
  }

  /** Joining the pieces of a split gives back the original text. */
  lemma {:induction false} JoinSplit(s: string, sep: char)
    ensures Join(Split(s, sep), sep) == s
  {
    if s != [] {
      var rest := Split(s[1..], sep);
      JoinSplit(s[1..], sep);
      if s[0] != sep && |rest| > 1 {
        JoinConsFirst(s[0], rest, sep);
        assert Split(s, sep) == [[s[0]] + rest[0]] + rest[1..];
      }
    }
  }

  /** Prefixing the first piece with a character prefixes the joined text. */
  lemma JoinConsFirst(c: char, parts: seq<string>, sep: char)
    requires |parts| > 1
    ensures Join([[c] + parts[0]] + parts[1..], sep) == [c] + Join(parts, sep)
  {
    var ps := [[c] + parts[0]] + parts[1..];
    assert ps[1..] == parts[1..];
  }

  /** Splitting separator-free pieces joined by the separator gives back the pieces. */
  lemma {:induction false} SplitJoin(parts: seq<string>, sep: char)
    requires |parts| >= 1
    requires forall k :: 0 <= k < |parts| ==> sep !in parts[k]
    ensures Split(Join(parts, sep), sep) == parts
  {
    if |parts| == 1 {
      SplitNoSeparator(parts[0], sep);
    } else {
      SplitJoin(parts[1..], sep);
      SplitAfterPiece(parts[0], Join(parts[1..], sep), sep);
      assert parts == [parts[0]] + parts[1..];
    }
  }

  lemma {:induction false} SplitNoSeparator(a: string, sep: char)
    requires sep !in a
    ensures Split(a, sep) == [a]
  {
    if a != [] {
      SplitNoSeparator(a[1..], sep);
      assert a == [a[0]] + a[1..];
    }
  }

  lemma {:induction false} SplitAfterPiece(a: string, t: string, sep: char)
    requires sep !in a
    ensures Split(a + [sep] + t, sep) == [a] + Split(t, sep)
  {
    var s := a + [sep] + t;
    if a == [] {
      assert s[1..] == t;
    } else {
      assert s[1..] == a[1..] + [sep] + t;
      SplitAfterPiece(a[1..], t, sep);
      assert [a[0]] + a[1..] == a;
    }
  }
}

=== FILE: wrappers.dfy ===
/** Optional values and Go-style error results used across the model. */
module Wrappers {

  /** A value that may be missing: a command's output, a file's contents. */
  datatype Option<+T> = None | Some(value: T)

  /** The result of a Go function that returns only `error`: nil or an error value. */
  datatype Outcome<+E> = Pass | Fail(error: E)
}
